=== FILE: README.md ===
# Market-structure and signal engine, modelled in Dafny

This project models the analysis core of a crypto trading-signal bot. It covers three source files:

- **SMC analyzer** ("smart money concepts"). It finds five-candle order blocks and sorts them by strength. It clusters equal highs and lows into 0.0001-wide buckets. It finds stop-hunt spikes, structure breaks between swing points, swing highs and lows, and the trend over the last three swings. It finds key levels that price touched at least three times, and flags blocks that later candles traded through, keeping a running mitigation log.
- **ICT analyzer** ("inner circle trader"). It finds three-candle fair value gaps and four-candle reversal blocks. It picks volume-spike liquidity candles, builds premium/discount zones one ATR (average true range) either side of each swing, and keeps the entries where a block sits both near liquidity and inside a zone. It also searches for the next swing level beyond a price.
- **Signal generator.** It checks long and short setups against the SMC state and computes each signal's stop, targets, confidence, position size, leverage and historical win rate. It also models the `analyzeMarket` pass that runs everything over a rolling window of the last 1000 candles.

The model is functional:
- Each analyzer instance is an immutable state record, and each method is a function from the old state and the window to the new state.
- A JavaScript exception, where the source can throw (an undefined candle or swing read), becomes `None`. The steps that ran before the throw keep their effect, as the `try`/`catch` in `analyzeMarket` does.
- Prices and volumes are `real`. Times are `int`.
- `Math.round` is `Round`, which rounds halves upward.
- `toFixed(8)` round-trips are `ToFixed8`. JavaScript's infinities and `NaN` are the `ExtReal` datatype, and `x / 0` is `Div`.
- `Array.prototype.sort` with a key comparator is the stable `SortDesc`.
- Every `for` loop that pushes is a `Scan`.

The headline property is `Signals.AnalysisNeverSignals`:
- `analyzeMarket` replaces the order blocks with the window's own blocks, then runs the mitigation pass over that same window.
- Every block's own candles trade through it (`SmcBlocks.DetectedBlocksTradedThrough`), so every block is flagged mitigated.
- Both setup checks require an unmitigated block.
- So the pipeline, as written, can never emit a signal.

Some behaviours of the code are easy to misread; the model keeps them as written:
- With fewer than two swing points the trend is `uptrend`: the trend test's `every` holds vacuously on such a list (`Swings.DetermineTrend`).
- `identifyOrderBlocks` replaces the block list wholesale on every call; blocks do not accumulate across calls.
- So an `analyzeMarket` pass that throws after `identifyOrderBlocks` leaves freshly found blocks, none of them flagged. A block that the previous pass flagged mitigated is un-flagged again, while the mitigation log keeps its event (`Signals.ThrowUnflagsBlocks`).
- A bearish block is mitigated when any candle's high reaches the block's `stop`, which is the anchor candle's low (src/server/models/SmcAnalyzer.js:358).
- `identifyFvg` labels as bullish the gap where the previous low lies above the next high, which is a gap down, although the comment at src/server/models/IctAnalyzer.js:26 calls it a gap up.
- Without trade history the win rate is a flat 50 that does not pass through the 5..95 clamp, and the history is never updated.

## Model

| member | source | states |
|---|---|---|
| Seqs.SortDescStable | src/server/models/SmcAnalyzer.js:53 | the descending sort is stable: the elements of any one key keep their input order |
| Seqs.InsertStable | src/server/models/SmcAnalyzer.js:352 | insertion moves an element only past elements of greater key |
| Numeric.Round | src/server/trading/SignalGenerator.new.js:421 | `Math.round` lands within half a unit of its argument, rounding halves up |
| Numeric.RoundMonotone | src/server/trading/SignalGenerator.new.js:475 | rounding never reverses the order of two numbers |
| Numeric.Div | src/server/trading/SignalGenerator.new.js:277 | a division by a non-zero number is finite and undoes the multiplication; by zero it is an infinity with the dividend's sign, or NaN |
| Numeric.ToFixed8 | src/server/trading/SignalGenerator.new.js:404 | the `toFixed(8)` round trip moves a number by at most half of 1e-8 and keeps it non-negative |
| Numeric.RoundNearest | src/server/trading/SignalGenerator.new.js:421 | no integer is nearer to the argument than `Math.round`'s result |
| Numeric.ToFixed8OnGrid | src/server/trading/SignalGenerator.new.js:404 | the round trip is a whole number of 1e-8 units: the rounded magnitude with the argument's sign |
| Numeric.ToFixed8Nearest | src/server/trading/SignalGenerator.new.js:404 | no multiple of 1e-8 is nearer to the argument than the round trip |
| Numeric.ToFixed8Monotone | src/server/trading/SignalGenerator.new.js:404 | the round trip never reverses the order of two numbers |
| Candles.TrueRange | src/server/models/SmcAnalyzer.js:379-384 | the true range is the largest of the bar range and the two gaps to the previous close: it dominates all three and equals one of them |
| Candles.Atr | src/server/models/SmcAnalyzer.js:376-387 | the ATR of a window of at least 14 candles is non-negative |
| Candles.AtrReadsFirstFourteen | src/server/models/SmcAnalyzer.js:376-387 | the ATR depends only on the first 14 candles of the window, not on the most recent ones |
| Candles.AverageVolume | src/server/models/SmcAnalyzer.js:389-391 | the mean shares the total evenly, so it lies between the lightest and the heaviest candle's volume; with non-negative volumes it is at least the first candle's share |
| Swings.SwingHighs | src/server/models/SmcAnalyzer.js:269-302 | a point is a swing high exactly when its candle's high beats the two candles either side; at most n-4 of them |
| Swings.SwingLows | src/server/models/SmcAnalyzer.js:269-302 | a point is a swing low exactly when its candle's low undercuts the two candles either side; at most n-4 of them |
| Swings.SwingsAscending | src/server/models/SmcAnalyzer.js:273-299 | on time-ordered candles swing points come out in strictly ascending time order |
| Swings.SwingMirror | src/server/models/SmcAnalyzer.js:269-302 | negating all prices turns swing lows into swing highs and back, point for point |
| Swings.Recent | src/server/models/SmcAnalyzer.js:305-306 | `slice(-3)` keeps min(3, n) swings |
| Swings.RecentIsSuffix | src/server/models/SmcAnalyzer.js:305-306 | what it keeps is the tail of the list, so the last swings in order |
| Swings.StepwiseRise | src/server/models/SmcAnalyzer.js:308-311 | the `every(!i \|\| x > prev)` test holds exactly when the sequence is strictly increasing |
| Swings.StepwiseFall | src/server/models/SmcAnalyzer.js:315-318 | the mirrored test holds exactly when the sequence is strictly decreasing |
| Swings.DetermineTrend | src/server/models/SmcAnalyzer.js:304-323 | uptrend exactly when the last three highs and lows both rise strictly; downtrend exactly when both fall and they do not rise; one or no swings give uptrend |
| Swings.TrendIgnoresOlderSwings | src/server/models/SmcAnalyzer.js:305-306 | swings older than the last three never change the trend |
| SmcBlocks.BlockStrength | src/server/models/SmcAnalyzer.js:157-165 | volume ratio times relative move is non-negative for a heavy anchor of positive price |
| SmcBlocks.HeavyAnchorHasPositiveMean | src/server/models/SmcAnalyzer.js:141-161 | an anchor heavier than the mean makes the mean positive, so the strength's divisions are defined |
| SmcBlocks.BullishBlock | src/server/models/SmcAnalyzer.js:26-36 | a bullish block enters at the anchor's low, stops at its high, is unmitigated and has non-negative strength |
| SmcBlocks.BearishBlock | src/server/models/SmcAnalyzer.js:39-49 | a bearish block enters at the anchor's high, stops at its low, is unmitigated and has non-negative strength |
| SmcBlocks.DetectedBlocks | src/server/models/SmcAnalyzer.js:22-50 | a block is detected exactly when some five-candle window matches the bullish or bearish pattern |
| SmcBlocks.IdentifyOrderBlocks | src/server/models/SmcAnalyzer.js:13-56 | the result is a permutation of the detected blocks, in non-increasing strength, all unmitigated |
| SmcBlocks.MitigationEvents | src/server/models/SmcAnalyzer.js:357-373 | the events logged are those of the blocks that flip, one each, in block order |
| SmcBlocks.CheckMitigation | src/server/models/SmcAnalyzer.js:355-374 | a block flips to mitigated exactly when it was not and some candle reaches its mitigation price; one event per flip, in block order |
| SmcBlocks.DetectedBlocksTradedThrough | src/server/models/SmcAnalyzer.js:22-50 | every block's own anchor candle already reaches its mitigation price |
| SmcBlocks.OwnWindowMitigatesAll | src/server/models/SmcAnalyzer.js:355-374 | mitigating the window's blocks against the same window flags every block |
| SmcBlocks.MitigationIdempotent | src/server/models/SmcAnalyzer.js:355-374 | a second mitigation pass on the same window changes no block and logs no event |
| SmcLiquidity.AddTick | src/server/models/SmcAnalyzer.js:171-182 | a known bucket key increments its count only; a new key appends a count-1 bucket stamped with the tick's time |
| SmcLiquidity.Group | src/server/models/SmcAnalyzer.js:167-183 | buckets have distinct keys, each counts exactly the ticks with its key, carries the first such tick's time, and every tick's key has a bucket |
| SmcLiquidity.KeepClusters | src/server/models/SmcAnalyzer.js:184 | the filter keeps exactly the buckets with count at least 3, each once and in bucket order, so distinct keys stay distinct |
| SmcLiquidity.Clusters | src/server/models/SmcAnalyzer.js:167-185 | the grouping filtered to its clusters: one bucket per key, each counting exactly its ticks |
| SmcLiquidity.EqualHighs | src/server/models/SmcAnalyzer.js:167-185 | the clusters of rounded highs: counts at least 3 and exact, first-seen times, each rounded high at most once, and every rounded high seen three times is present |
| SmcLiquidity.EqualLows | src/server/models/SmcAnalyzer.js:187-205 | the same for rounded lows, each at most once |
| SmcLiquidity.Ratio | src/server/models/SmcAnalyzer.js:220 | the stop-hunt strength, a reversal over the ATR, is non-negative, finite or infinite |
| SmcLiquidity.HuntsAt | src/server/models/SmcAnalyzer.js:211-236 | on well-formed candles at most one stop hunt per candle |
| SmcLiquidity.StopHunts | src/server/models/SmcAnalyzer.js:207-239 | a level is a stop hunt exactly when some inner candle spikes beyond its predecessor by more than an ATR and the next close reverses past it; strengths non-negative; on time-ordered well-formed candles one hunt per candle, in candle order |
| SmcLiquidity.FindLiquidityLevels | src/server/models/SmcAnalyzer.js:58-96 | resistances, then supports, then stop hunts; cluster levels have strength at least 3; exactly the equal-high, equal-low and stop-hunt levels; none swept |
| SmcStructure.BreaksAt | src/server/models/SmcAnalyzer.js:247-264 | at most one break per swing index |
| SmcStructure.StructureBreaks | src/server/models/SmcAnalyzer.js:241-267 | throws exactly when a high that differs from its predecessor has no low at its index, so never when the lows are at least as many; otherwise exactly the bearish breaks (lower high and lower low) and bullish breaks (higher high and higher low) |
| SmcStructure.BreaksCrashWithFewerLows | src/server/models/SmcAnalyzer.js:247-249 | two rising highs with one low make the break loop throw |
| SmcStructure.BreakBeyondPreviousSwing | src/server/models/SmcAnalyzer.js:247-264 | a bullish break is a swing high above its predecessor, a bearish one a swing low below its predecessor |
| SmcStructure.Tolerance | src/server/models/SmcAnalyzer.js:411 | the touch tolerance, half an ATR, is non-negative |
| SmcStructure.TouchCount | src/server/models/SmcAnalyzer.js:413-419 | at most one touch per candle |
| SmcStructure.RespectCount | src/server/models/SmcAnalyzer.js:413-421 | only touching candles can respect a level |
| SmcStructure.TouchCountConcat | src/server/models/SmcAnalyzer.js:413-419 | touches over two windows add up |
| SmcStructure.TouchCountMonotone | src/server/models/SmcAnalyzer.js:397-404 | a wider tolerance never counts fewer touches |
| SmcStructure.LevelStrength | src/server/models/SmcAnalyzer.js:408-425 | the strength lies between half the touches and the touches |
| SmcStructure.SignificantLevels | src/server/models/SmcAnalyzer.js:329-343 | exactly the swings touched at least three times, as key levels |
| SmcStructure.FindKeyLevels | src/server/models/SmcAnalyzer.js:325-353 | a permutation of the significant swing highs (as resistance) followed by the significant swing lows (as support), each as often as its swing occurs; in non-increasing strength, with levels of equal strength in the order they were pushed; each of strength at least 1.5 |
| SmcStructure.WithOrderBlocks | src/server/models/SmcAnalyzer.js:53-55 | the block list is replaced by the window's blocks and nothing else changes |
| SmcStructure.WithLiquidityLevels | src/server/models/SmcAnalyzer.js:94-95 | the level list is replaced and nothing else changes |
| SmcStructure.DetectMarketStructure | src/server/models/SmcAnalyzer.js:98-131 | throws exactly on short windows or a throwing break loop; otherwise flags traded-through blocks, appends one event per flipping block to the mitigation log in block order, stores the window's swing highs and lows, the breaks the loop found, the trend, and the window's key levels as `FindKeyLevels` sorts them, and keeps the liquidity levels |
| SmcStructure.DetectTwiceLogsOnce | src/server/models/SmcAnalyzer.js:117-130 | detecting twice on one window equals detecting once |
| Ict.BullishGap | src/server/models/IctAnalyzer.js:26-34 | the gap labelled bullish has its midpoint strictly between floor and ceiling |
| Ict.BearishGap | src/server/models/IctAnalyzer.js:37-45 | the same for the bearish gap |
| Ict.FvgsAt | src/server/models/IctAnalyzer.js:21-46 | on well-formed candles at most one gap per candle |
| Ict.IdentifyFvg | src/server/models/IctAnalyzer.js:12-51 | exactly the gaps at the inner candles, each with its midpoint inside |
| Ict.FvgCount | src/server/models/IctAnalyzer.js:21 | at most n-2 gaps |
| Ict.FvgMirror | src/server/models/IctAnalyzer.js:26-45 | negating prices turns each gap into the opposite-bias gap, in the same order |
| Ict.FvgsAscending | src/server/models/IctAnalyzer.js:21-46 | on time-ordered candles the gaps come out in strictly ascending time |
| Ict.QuadStrength | src/server/models/IctAnalyzer.js:308-313 | block strength is non-negative for non-negative volumes |
| Ict.QuadBlock | src/server/models/IctAnalyzer.js:156-161 | the block is priced at the first close and is a resistance exactly when the close fell over the window |
| Ict.IctOrderBlocks | src/server/models/IctAnalyzer.js:148-165 | exactly one block per reversal window, at most n-3, each a support or a resistance |
| Ict.ReversalKind | src/server/models/IctAnalyzer.js:287-306 | a bullish reversal yields a support block, a bearish one a resistance block |
| Ict.IctLiquidityLevels | src/server/models/IctAnalyzer.js:167-183 | exactly the candles whose volume exceeds one and a half times the mean, one level per such candle in candle order; none for an empty window |
| Ict.NotAllCandlesHeavy | src/server/models/IctAnalyzer.js:315-320 | with non-negative volumes some candle never exceeds the threshold |
| Ict.ZoneAround | src/server/models/IctAnalyzer.js:202-207 | a zone spans one ATR either side of its reference |
| Ict.PremiumDiscountZones | src/server/models/IctAnalyzer.js:195-219 | one premium zone per swing high, then one discount zone per swing low, each one ATR either side |
| Ict.InZonesIffNearSwing | src/server/models/IctAnalyzer.js:77-79 | a price is in some zone exactly when it is within one ATR of some swing |
| Ict.WithFvgs | src/server/models/IctAnalyzer.js:48-50 | only the gap list is replaced |
| Ict.EntriesFrom | src/server/models/IctAnalyzer.js:81-95 | exactly the blocks both near a level and in a zone, one entry per such block in block order, with the trend as context |
| Ict.FindOptimalEntries | src/server/models/IctAnalyzer.js:53-98 | refreshes swings and trend; throws after that on short windows; otherwise sets the zones and returns one entry per qualifying reversal block, in block order |
| Ict.FirstAbove | src/server/models/IctAnalyzer.js:226-228 | the first position above the price, with everything earlier at or below it |
| Ict.FirstBelow | src/server/models/IctAnalyzer.js:226-228 | the first position below the price, with everything earlier at or above it |
| Ict.NextStructureLevel | src/server/models/IctAnalyzer.js:221-229 | the level found is a swing on the profit side of the price, and absent exactly when no swing lies beyond the price |
| Ict.FirstAboveIsLeast | src/server/models/IctAnalyzer.js:224-228 | in an ascending list, the first level above the price is the least level above it |
| Ict.FirstBelowIsGreatest | src/server/models/IctAnalyzer.js:224-228 | in a descending list, the first level below the price is the greatest level below it |
| Ict.NextAbove | src/server/models/IctAnalyzer.js:221-229 | for a long it is the least swing above the price, and absent exactly when none is above |
| Ict.NextBelow | src/server/models/IctAnalyzer.js:221-229 | for a short it is the greatest swing below the price, and absent exactly when none is below |
| Signals.CheckLongSetup | src/server/trading/SignalGenerator.new.js:318-345 | a long setup exists exactly when a bullish unmitigated block is within 5%, a support lies below and the trend is up or ranging; it takes the first such block and the highest such support |
| Signals.CheckShortSetup | src/server/trading/SignalGenerator.new.js:347-374 | the mirror: first bearish block in reach, lowest resistance above, down or ranging trend |
| Signals.MitigatedBlocksGiveNoSetup | src/server/trading/SignalGenerator.new.js:319-322 | with every block mitigated neither setup exists |
| Signals.StopLoss | src/server/trading/SignalGenerator.new.js:376-388 | the long stop is at or below both the block stop and 99% of the support; the short stop at or above both the block stop and 101% of the resistance |
| Signals.SetupRiskPositive | src/server/trading/SignalGenerator.new.js:270-273 | a found setup's stop is on the losing side of the price when levels are positive |
| Signals.HighestPrice | src/server/trading/SignalGenerator.new.js:397 | the greatest swing price, or minus infinity for no swings |
| Signals.LowestPrice | src/server/trading/SignalGenerator.new.js:401 | the least swing price, or plus infinity for no swings |
| Signals.KeyTargetPrice | src/server/trading/SignalGenerator.new.js:395-399 | the price of the first key level in list order on the profit side of the entry, every earlier one failing the test; absent exactly when there is none |
| Signals.Targets | src/server/trading/SignalGenerator.new.js:390-405 | two or three targets, the first finite; three exactly when a key level qualifies, and then the first is that first qualifying level rounded; the middle one is the rounded entry two ATRs towards profit; the last is the rounded extreme swing, an infinity exactly when there are none |
| Signals.FirstTargetBeyondEntry | src/server/trading/SignalGenerator.new.js:390-405 | the first target is never on the losing side of the rounded entry |
| Signals.LevelBonus | src/server/trading/SignalGenerator.new.js:418-419 | the level bonus is at most 10, and non-negative for non-negative strengths |
| Signals.Confidence | src/server/trading/SignalGenerator.new.js:407-422 | confidence is at most 100, and at least 50 for non-negative strengths |
| Signals.AlignmentWorthTwenty | src/server/trading/SignalGenerator.new.js:410-414 | trend alignment adds exactly 20 points up to the cap of 100 |
| Signals.ConfidenceMonotone | src/server/trading/SignalGenerator.new.js:416 | a stronger block never lowers the confidence |
| Signals.PositionSize | src/server/trading/SignalGenerator.new.js:464-468 | the size is non-negative, infinite exactly when entry equals stop, and otherwise 100 over the stop distance to within half of the eighth decimal |
| Signals.SizeRisksHundred | src/server/trading/SignalGenerator.new.js:464-468 | a size that close to 100 over the stop distance loses 100 at the stop, up to the distance times the rounding error |
| Signals.Leverage | src/server/trading/SignalGenerator.new.js:470-479 | leverage stays within 1..20: 20 for no risk or a risk of at most 0.05% of the price; 1 for negative risk or a risk of at least 1.5% of the price |
| Signals.LeverageMonotone | src/server/trading/SignalGenerator.new.js:473-476 | more risk never gives more leverage |
| Signals.LeverageExamples | src/server/trading/SignalGenerator.new.js:470-479 | a 1% stop gives 1x, a 0.1% stop gives 10x |
| Signals.WinRate | src/server/trading/SignalGenerator.new.js:481-489 | 50 without history; otherwise within 5..95, at the bounds for infinite ratios, undefined (NaN) for a NaN ratio |
| Signals.WinRateMonotone | src/server/trading/SignalGenerator.new.js:485-488 | a better ratio never lowers the win rate; a ratio of 1 gives the historical rate clamped to 5..95 |
| Signals.SignalFor | src/server/trading/SignalGenerator.new.js:268-285 | a signal is priced at the close with leverage 1..20, confidence at most 100, win rate 5..95, and 50 without history |
| Signals.SignalParts | src/server/trading/SignalGenerator.new.js:269-273 | the signal's stop and targets are the setup's, and its ratio is the reward to the first target over the risk to the stop |
| Signals.SignalsFrom | src/server/trading/SignalGenerator.new.js:272-313 | one signal per setup, the long one first, each at the given price and within the signal bounds; the first is the signal built from the long setup when there is one, the last the one built from the short setup when there is one |
| Signals.GenerateSignals | src/server/trading/SignalGenerator.new.js:262-316 | throws exactly on an empty window or a setup on fewer than 14 candles; otherwise one signal per setup, long first, at the last close, every long signal with its stop below the price and every short one with its stop above it |
| Signals.SignalStopsOnLosingSide | src/server/trading/SignalGenerator.new.js:272-313 | on setups whose level lies on the right side of a positive price, every long signal's stop is below the price and every short one's above it |
| Signals.StructurePassMitigatesOwnBlocks | src/server/models/SmcAnalyzer.js:355-374 | the structure pass run on the window that produced the blocks flags every one of them |
| Signals.SmcPass | src/server/trading/SignalGenerator.new.js:203-206 | gets through exactly on a 14-candle window whose break loop does not throw, and then every block is flagged; a throw keeps the fresh unflagged blocks and the old structure; levels are fresh once the window is long enough |
| Signals.AnalyzeMarket | src/server/trading/SignalGenerator.new.js:199-260 | reaches the signals exactly on a 14-candle window whose break loop does not throw, by which time every block is mitigated; window and history unchanged; the mitigation log only grows |
| Signals.AnalyzeMarketSmcState | src/server/trading/SignalGenerator.new.js:203-206 | after a caught throw the blocks are the window's fresh blocks and the structure is unchanged; the levels are fresh exactly when the window has 14 candles |
| Signals.ThrowUnflagsBlocks | src/server/models/SmcAnalyzer.js:53-55 | after a caught throw no block is flagged mitigated |
| Signals.AnalysisNeverSignals | src/server/trading/SignalGenerator.new.js:199-211 | the analysis never produces a signal |
| Signals.AppendClosed | src/server/trading/SignalGenerator.new.js:156-157 | the window gains the candle last and keeps at most the last 1000 |
| Signals.AppendKeepsWindowSound | src/server/trading/SignalGenerator.new.js:156-157 | appending a later well-formed candle keeps the window valid and time-ordered |
| Signals.OnClosedCandle | src/server/trading/SignalGenerator.new.js:144-158 | a closed candle is appended, the history is kept, and no signal results |

## Left out

- Input and output are not modelled: the console prompts, the exchange REST check, the websocket stream and its reconnect timer, `showStats`, `showHelp` and `cleanup`. `OnClosedCandle` stands for the websocket handler's closed-candle branch.
- `IctAnalyzer.calculateTargets` is not modelled: it reads `top`/`bottom` fields that no ICT block has, and nothing in the pipeline calls it.
- The `breakers` list is only carried through by the source and is not modelled.
- IEEE-754 double rounding is not modelled: arithmetic is exact on reals, so the 0.0001 bucket keys are idealised.
- `SmcLiquidity.EqualHighs`: buckets come out in first-seen order. `Object.values` lists integer-valued keys first, in ascending order, so whole-number prices would lead in the source. Only the order of the list differs, not its contents.
- `riskRewardRatio.toFixed(2)` is not modelled: `Signal.riskReward` keeps the unrounded quotient that the win rate is computed from.
- `Leverage`: defined for a positive price only. The generator always passes the last close of a well-formed window, and zero or negative prices bring in signed zeros and NaN.
- `GenerateSignals`: requires a well-formed window (positive prices), which is what the exchange delivers.
- `SmcBlocks.BullishBlock`, `SmcBlocks.BearishBlock`, `SmcBlocks.BlocksAt`, `SmcBlocks.DetectedBlocks`, `SmcBlocks.IdentifyOrderBlocks`, `SmcStructure.WithOrderBlocks`, `Signals.SmcPass` and `AnalyzeMarket`: these require a well-formed window, because the SMC block strength divides by the anchor's close and the mean volume. The lemmas about these members inherit the same requirement.
- `OnClosedCandle`: requires the incoming candle to be well-formed, for the same reason.
- `Candles.Atr`, `SmcLiquidity.StopHunts`, `SmcLiquidity.FindLiquidityLevels`, `SmcStructure.FindKeyLevels` and `SmcStructure.WithLiquidityLevels`: these require 14 candles, because the source throws on shorter windows. The callers that can see a short window (`DetectMarketStructure`, `FindOptimalEntries`, `GenerateSignals`, `AnalyzeMarket`) model that throw as `None`.
- `SmcLiquidity.Ratio`: a zero reversal over a zero ATR is NaN in JavaScript but `Infinite` here. It needs a candle whose low lies above its high, which no well-formed window has.
- The trade history is never written by the source, so `TradeHistory` is a constant input.
- Object aliasing between `this.marketStructure` and the returned structure is not modelled.
- The ICT trend and swing lists reuse the SMC definitions (`Swings.SwingHighs`, `Swings.DetermineTrend`) on prices: the two source copies compute the same thing.

=== FILE: candles.dfy ===
/** OHLCV candles, the true-range average and the volume mean that every
    analyzer computes from a candle window. */
module Candles {
  import opened Numeric

  /** One bar of market data; `time` is the exchange's millisecond open time. */
  datatype Candle = Candle(time: int, open: real, high: real, low: real, close: real, volume: real)

  /** A candle as the exchange delivers it: positive prices, the body inside
      the wick range, and a non-negative traded volume. */
  predicate WellFormed(c: Candle) {
    && 0.0 < c.low
    && c.low <= c.open && c.low <= c.close
    && c.open <= c.high && c.close <= c.high
    && 0.0 <= c.volume
  }

  predicate Valid(data: seq<Candle>) {
    forall i :: 0 <= i < |data| ==> WellFormed(data[i])
  }

  /** Strictly increasing open times, as the exchange guarantees. */
  predicate Ascending(data: seq<Candle>) {
    forall i, j :: 0 <= i < j < |data| ==> data[i].time < data[j].time
  }

  /** The true range of `c` against the close of the candle before it. */
  function TrueRange(prev: Candle, c: Candle): (r: real)
    ensures r >= 0.0
    ensures r >= c.high - c.low
    ensures r >= Abs(c.high - prev.close) && r >= Abs(c.low - prev.close)
    ensures r == c.high - c.low || r == Abs(c.high - prev.close) || r == Abs(c.low - prev.close)
  {
    Max(c.high - c.low, Max(Abs(c.high - prev.close), Abs(c.low - prev.close)))
  }

  /** The ATR lookback used by all three analyzers. */
  const AtrPeriod: nat := 14

  /** Sum of the true ranges of candles `1 .. k`. */
  function TrueRangeSum(data: seq<Candle>, k: nat): (r: real)
    requires k < |data|
    ensures r >= 0.0
  {
    if k == 0 then 0.0 else TrueRangeSum(data, k - 1) + TrueRange(data[k - 1], data[k])
  }

  /** `_calculateATR(data)`: the true ranges of candles 1 .. 13 (the loop
      starts at 1 and stops before the period) divided by the period 14.
      Reading `data[13]` needs at least 14 candles; fewer makes the source
      throw. */
  function Atr(data: seq<Candle>): (r: real)
    requires |data| >= AtrPeriod
    ensures r >= 0.0
  {
    TrueRangeSum(data, AtrPeriod - 1) / AtrPeriod as real
  }

  lemma {:induction false} TrueRangeSumPrefix(a: seq<Candle>, b: seq<Candle>, k: nat)
    requires k < |a| && k < |b|
    requires a[..k + 1] == b[..k + 1]
    ensures TrueRangeSum(a, k) == TrueRangeSum(b, k)
  {
    if k > 0 {
      assert a[k] == a[..k + 1][k] == b[..k + 1][k] == b[k];
      assert a[k - 1] == a[..k + 1][k - 1] == b[..k + 1][k - 1] == b[k - 1];
      assert a[..k] == a[..k + 1][..k] == b[..k + 1][..k] == b[..k];
      TrueRangeSumPrefix(a, b, k - 1);
    }
  }

  /** The ATR only reads the first 14 candles of the window: two windows that
      agree there have the same ATR, whatever follows. */
  lemma AtrReadsFirstFourteen(a: seq<Candle>, b: seq<Candle>)
    requires |a| >= AtrPeriod && |b| >= AtrPeriod
    requires a[..AtrPeriod] == b[..AtrPeriod]
    ensures Atr(a) == Atr(b)
  {
    TrueRangeSumPrefix(a, b, AtrPeriod - 1);
  }

  function VolumeSum(cs: seq<Candle>): (r: real)
    ensures (forall i :: 0 <= i < |cs| ==> cs[i].volume >= 0.0) ==> r >= 0.0
  {
    if cs == [] then 0.0 else cs[0].volume + VolumeSum(cs[1..])
  }

  /** A window whose volumes sum to at most `n * t` has a candle of volume
      at most `t`. */
  lemma {:induction false} CandleAtMost(cs: seq<Candle>, t: real)
    requires cs != [] && VolumeSum(cs) <= |cs| as real * t
    ensures exists j :: 0 <= j < |cs| && cs[j].volume <= t
  {
    if cs[0].volume > t {
      assert VolumeSum(cs) == cs[0].volume + VolumeSum(cs[1..]);
      assert |cs| as real * t == t + |cs[1..]| as real * t;
      CandleAtMost(cs[1..], t);
      var k :| 0 <= k < |cs[1..]| && cs[1..][k].volume <= t;
      assert cs[k + 1].volume <= t;
    }
  }

  /** A window whose volumes sum to at least `n * t` has a candle of volume
      at least `t`. */
  lemma {:induction false} CandleAtLeast(cs: seq<Candle>, t: real)
    requires cs != [] && |cs| as real * t <= VolumeSum(cs)
    ensures exists j :: 0 <= j < |cs| && t <= cs[j].volume
  {
    if cs[0].volume < t {
      assert VolumeSum(cs) == cs[0].volume + VolumeSum(cs[1..]);
      assert |cs| as real * t == t + |cs[1..]| as real * t;
      CandleAtLeast(cs[1..], t);
      var k :| 0 <= k < |cs[1..]| && t <= cs[1..][k].volume;
      assert t <= cs[k + 1].volume;
    }
  }

  /** `_calculateAverageVolume`: the mean volume of the candles. It is the
      total shared evenly, so it lies between the lightest and the heaviest
      candle; with non-negative volumes it is at least the first candle's
      share. */
  function AverageVolume(cs: seq<Candle>): (r: real)
    requires |cs| > 0
    ensures |cs| as real * r == VolumeSum(cs)
    ensures exists j :: 0 <= j < |cs| && cs[j].volume <= r
    ensures exists j :: 0 <= j < |cs| && r <= cs[j].volume
    ensures (forall i :: 0 <= i < |cs| ==> cs[i].volume >= 0.0) ==> r >= cs[0].volume / |cs| as real
  {
    var n := |cs| as real;
    var r := VolumeSum(cs) / n;
    Share(VolumeSum(cs), n, cs[0].volume);
    FirstVolumeInSum(cs);
    CandleAtMost(cs, r);
    CandleAtLeast(cs, r);
    r
  }

  /** Sharing `sum` evenly over `n` and multiplying back gives `sum`, and a
      larger total gives a larger share. */
  lemma Share(sum: real, n: real, part: real)
    requires n > 0.0
    ensures n * (sum / n) == sum
    ensures part <= sum ==> part / n <= sum / n
  {
  }

  /** With non-negative volumes the total is at least the first volume. */
  lemma FirstVolumeInSum(cs: seq<Candle>)
    requires cs != []
    ensures (forall i :: 0 <= i < |cs| ==> cs[i].volume >= 0.0) ==> cs[0].volume <= VolumeSum(cs)
  {
    if forall i :: 0 <= i < |cs| ==> cs[i].volume >= 0.0 {
      forall i | 0 <= i < |cs[1..]| ensures cs[1..][i].volume >= 0.0 {
        assert cs[1..][i] == cs[i + 1];
      }
    }
  }

  /** The candle seen upside down: prices negated, so highs become lows. */
  function Mirror(c: Candle): (r: Candle)
    ensures r.high == -c.low && r.low == -c.high
  {
    Candle(c.time, -c.open, -c.low, -c.high, -c.close, c.volume)
  }

  function MirrorAll(data: seq<Candle>): (r: seq<Candle>)
    ensures |r| == |data|
    ensures forall i :: 0 <= i < |data| ==> r[i] == Mirror(data[i])
  {
    seq(|data|, i requires 0 <= i < |data| => Mirror(data[i]))
  }
}

=== FILE: ict.dfy ===
/** ICT analysis: fair value gaps, four-candle reversal blocks, volume-spike
    liquidity, premium/discount zones around swings, and the entries where
    they coincide. */
module Ict {
  import opened Options
  import opened Numeric
  import opened Seqs
  import opened Candles
  import opened Swings
  import opened SmcBlocks
  import opened SmcLiquidity

  /** A gap between the candles either side of `time`'s candle. */
  datatype Fvg = Fvg(bias: Bias, ceiling: real, floor: real, time: int, midpoint: real)

  /** The previous candle's low lies above the next candle's high. The source
      labels this gap bullish. */
  predicate IsBullishGap(data: seq<Candle>, i: int)
    requires 1 <= i < |data| - 1
  {
    data[i - 1].low > data[i + 1].high
  }

  /** The previous candle's high lies below the next candle's low. */
  predicate IsBearishGap(data: seq<Candle>, i: int)
    requires 1 <= i < |data| - 1
  {
    data[i - 1].high < data[i + 1].low
  }

  function BullishGap(data: seq<Candle>, i: int): (g: Fvg)
    requires 1 <= i < |data| - 1 && IsBullishGap(data, i)
    ensures g.bias == Bullish && g.time == data[i].time
    ensures g.floor < g.midpoint < g.ceiling
  {
    Fvg(Bullish, data[i - 1].low, data[i + 1].high, data[i].time, (data[i - 1].low + data[i + 1].high) / 2.0)
  }

  function BearishGap(data: seq<Candle>, i: int): (g: Fvg)
    requires 1 <= i < |data| - 1 && IsBearishGap(data, i)
    ensures g.bias == Bearish && g.time == data[i].time
    ensures g.floor < g.midpoint < g.ceiling
  {
    Fvg(Bearish, data[i + 1].low, data[i - 1].high, data[i].time, (data[i + 1].low + data[i - 1].high) / 2.0)
  }

  /** What iteration `i` of `identifyFvg` pushes. A well-formed window never
      has both gaps at one candle. */
  function FvgsAt(data: seq<Candle>, i: int): (r: seq<Fvg>)
    ensures Valid(data) ==> |r| <= 1
  {
    if !(1 <= i < |data| - 1) then []
    else
      assert Valid(data) ==> WellFormed(data[i - 1]) && WellFormed(data[i + 1]);
      (if IsBullishGap(data, i) then [BullishGap(data, i)] else [])
      + (if IsBearishGap(data, i) then [BearishGap(data, i)] else [])
  }

  function FvgEmitter(data: seq<Candle>): (e: int -> seq<Fvg>)
    ensures forall i :: e(i) == FvgsAt(data, i)
  {
    i => FvgsAt(data, i)
  }

  ghost predicate FvgAt(data: seq<Candle>, i: int, g: Fvg)
    requires 1 <= i < |data| - 1
  {
    || (IsBullishGap(data, i) && g == BullishGap(data, i))
    || (IsBearishGap(data, i) && g == BearishGap(data, i))
  }

  /** `identifyFvg`: exactly the gaps at candles 1 .. n-2, each with its
      midpoint strictly inside it. */
  function IdentifyFvg(data: seq<Candle>): (r: seq<Fvg>)
    ensures forall g :: g in r <==> exists i :: 1 <= i < |data| - 1 && FvgAt(data, i, g)
    ensures forall g :: g in r ==> g.floor < g.midpoint < g.ceiling
  {
    var r := Scan(1, |data| - 1, FvgEmitter(data));
    FvgMembers(data, r);
    r
  }

  lemma FvgsAtMembers(data: seq<Candle>, i: int, g: Fvg)
    requires 1 <= i < |data| - 1
    ensures g in FvgsAt(data, i) <==> FvgAt(data, i, g)
    ensures g in FvgsAt(data, i) ==> g.floor < g.midpoint < g.ceiling
  {
  }

  lemma FvgMembers(data: seq<Candle>, r: seq<Fvg>)
    requires r == Scan(1, |data| - 1, FvgEmitter(data))
    ensures forall g :: g in r <==> exists i :: 1 <= i < |data| - 1 && FvgAt(data, i, g)
    ensures forall g :: g in r ==> g.floor < g.midpoint < g.ceiling
  {
    var e := FvgEmitter(data);
    forall g | g in r ensures (exists i :: 1 <= i < |data| - 1 && FvgAt(data, i, g)) && g.floor < g.midpoint < g.ceiling {
      var i :| 1 <= i < |data| - 1 && g in e(i);
      FvgsAtMembers(data, i, g);
    }
    forall g | exists i :: 1 <= i < |data| - 1 && FvgAt(data, i, g) ensures g in r {
      var i :| 1 <= i < |data| - 1 && FvgAt(data, i, g);
      FvgsAtMembers(data, i, g);
      assert g in e(i);
    }
  }

  /** On well-formed candles there is at most one gap per inner candle. */
  lemma FvgCount(data: seq<Candle>)
    requires Valid(data) && |data| >= 2
    ensures |IdentifyFvg(data)| <= |data| - 2
  {
    ScanAtMostOne(1, |data| - 1, FvgEmitter(data));
  }

  /** The gap seen upside down: the other bias, with floor and ceiling
      negated and swapped. */
  function FlipGap(g: Fvg): Fvg {
    Fvg(if g.bias == Bullish then Bearish else Bullish, -g.floor, -g.ceiling, g.time, -g.midpoint)
  }

  /** Gap detection is symmetric under negating prices: the mirrored window
      has the mirrored gaps, in the same order. */
  lemma FvgMirror(data: seq<Candle>)
    requires Valid(data)
    ensures IdentifyFvg(MirrorAll(data)) == Map(FlipGap, IdentifyFvg(data))
  {
    var m := MirrorAll(data);
    var em := FvgEmitter(m);
    var ed := FvgEmitter(data);
    forall i | 1 <= i < |data| - 1 ensures em(i) == Map(FlipGap, ed(i)) {
      assert WellFormed(data[i - 1]) && WellFormed(data[i + 1]);
      assert IsBullishGap(m, i) <==> IsBearishGap(data, i);
      assert IsBearishGap(m, i) <==> IsBullishGap(data, i);
    }
    ScanMap(1, |data| - 1, ed, em, FlipGap);
  }

  /** Gaps at later candles carry later times. */
  lemma FvgOrder(data: seq<Candle>, i: int, j: int, x: Fvg, y: Fvg)
    requires Ascending(data) && i < j
    requires x in FvgsAt(data, i) && y in FvgsAt(data, j)
    ensures FvgTime(x) < FvgTime(y)
  {
    assert 1 <= i < |data| - 1 && x.time == data[i].time;
    assert 1 <= j < |data| - 1 && y.time == data[j].time;
  }

  function FvgTime(g: Fvg): int {
    g.time
  }

  /** On well-formed, time-ordered candles the gaps come out in time order. */
  lemma FvgsAscending(data: seq<Candle>)
    requires Valid(data) && Ascending(data)
    ensures StrictlyAscending(IdentifyFvg(data), FvgTime)
  {
    FvgsSingle(data);
    FvgsOrdered(data);
    ScanAscending(1, |data| - 1, FvgEmitter(data), FvgTime);
  }

  lemma FvgsSingle(data: seq<Candle>)
    requires Valid(data)
    ensures forall i :: 1 <= i < |data| - 1 ==> |FvgEmitter(data)(i)| <= 1
  {
  }

  lemma FvgsOrdered(data: seq<Candle>)
    requires Ascending(data)
    ensures forall i, j, x, y :: 1 <= i < j < |data| - 1 && x in FvgEmitter(data)(i) && y in FvgEmitter(data)(j) ==> FvgTime(x) < FvgTime(y)
  {
    var e := FvgEmitter(data);
    forall i, j, x, y | 1 <= i < j < |data| - 1 && x in e(i) && y in e(j)
      ensures FvgTime(x) < FvgTime(y)
    {
      FvgOrder(data, i, j, x, y);
    }
  }

  /** An ICT order block: the first candle's close of a reversal. */
  datatype IctBlock = IctBlock(price: real, kind: LevelKind, strength: real, time: int)

  /** `data.slice(i - 3, i + 1)`: four consecutive candles ending at `i`. */
  function Quad(data: seq<Candle>, i: int): (w: seq<Candle>)
    requires 3 <= i < |data|
    ensures |w| == 4
    ensures forall k :: 0 <= k < 4 ==> w[k] == data[i - 3 + k]
  {
    data[i - 3..i + 1]
  }

  predicate IsBullishReversal(w: seq<Candle>)
    requires |w| == 4
  {
    w[0].close < w[0].open && w[3].close > w[3].open && w[3].close > w[0].close
  }

  predicate IsBearishReversal(w: seq<Candle>)
    requires |w| == 4
  {
    w[0].close > w[0].open && w[3].close < w[3].open && w[3].close < w[0].close
  }

  /** `_calculateBlockStrength`: total volume times the close-to-close move,
      over the four candles. */
  function QuadStrength(w: seq<Candle>): (r: real)
    requires |w| == 4
    ensures (forall k :: 0 <= k < 4 ==> w[k].volume >= 0.0) ==> r >= 0.0
  {
    VolumeSum(w) * Abs(w[3].close - w[0].close) / 4.0
  }

  function QuadBlock(w: seq<Candle>): (b: IctBlock)
    requires |w| == 4
    ensures b.price == w[0].close && b.time == w[0].time
    ensures b.kind == Resistance <==> w[0].close > w[3].close
  {
    IctBlock(w[0].close, if w[0].close > w[3].close then Resistance else Support, QuadStrength(w), w[0].time)
  }

  function IctBlocksAt(data: seq<Candle>, i: int): (r: seq<IctBlock>)
    ensures |r| <= 1
  {
    if !(3 <= i < |data|) then []
    else
      var w := Quad(data, i);
      if IsBullishReversal(w) || IsBearishReversal(w) then [QuadBlock(w)] else []
  }

  function IctBlockEmitter(data: seq<Candle>): (e: int -> seq<IctBlock>)
    ensures forall i :: e(i) == IctBlocksAt(data, i)
  {
    i => IctBlocksAt(data, i)
  }

  ghost predicate IctBlockAt(data: seq<Candle>, i: int, b: IctBlock)
    requires 3 <= i < |data|
  {
    var w := Quad(data, i);
    (IsBullishReversal(w) || IsBearishReversal(w)) && b == QuadBlock(w)
  }

  /** `_findOrderBlocks`: one block per reversal window, in window order. A
      bullish reversal (the close rose) gives a support block, a bearish one
      a resistance block. */
  function IctOrderBlocks(data: seq<Candle>): (r: seq<IctBlock>)
    ensures |data| >= 3 ==> |r| <= |data| - 3
    ensures forall b :: b in r <==> exists i :: 3 <= i < |data| && IctBlockAt(data, i, b)
    ensures forall b :: b in r ==> (b.kind == Support || b.kind == Resistance)
  {
    var r := Scan(3, |data|, IctBlockEmitter(data));
    IctBlockMembers(data, r);
    r
  }

  lemma IctBlocksAtMembers(data: seq<Candle>, i: int, b: IctBlock)
    requires 3 <= i < |data|
    ensures b in IctBlocksAt(data, i) <==> IctBlockAt(data, i, b)
    ensures b in IctBlocksAt(data, i) ==> (b.kind == Support || b.kind == Resistance)
  {
  }

  lemma IctBlockMembers(data: seq<Candle>, r: seq<IctBlock>)
    requires r == Scan(3, |data|, IctBlockEmitter(data))
    ensures |data| >= 3 ==> |r| <= |data| - 3
    ensures forall b :: b in r <==> exists i :: 3 <= i < |data| && IctBlockAt(data, i, b)
    ensures forall b :: b in r ==> (b.kind == Support || b.kind == Resistance)
  {
    var e := IctBlockEmitter(data);
    if |data| >= 3 {
      ScanAtMostOne(3, |data|, e);
    }
    forall b | b in r ensures exists i :: 3 <= i < |data| && IctBlockAt(data, i, b) {
      var i :| 3 <= i < |data| && b in e(i);
      IctBlocksAtMembers(data, i, b);
    }
    forall b | exists i :: 3 <= i < |data| && IctBlockAt(data, i, b) ensures b in r {
      var i :| 3 <= i < |data| && IctBlockAt(data, i, b);
      IctBlocksAtMembers(data, i, b);
      assert b in e(i);
    }
  }

  /** A reversal block's kind says which way price reversed: support after a
      bullish reversal, resistance after a bearish one. */
  lemma ReversalKind(data: seq<Candle>, i: int)
    requires 3 <= i < |data|
    ensures IsBullishReversal(Quad(data, i)) ==> QuadBlock(Quad(data, i)).kind == Support
    ensures IsBearishReversal(Quad(data, i)) ==> QuadBlock(Quad(data, i)).kind == Resistance
  {
  }

  /** A candle of concentrated liquidity. */
  datatype IctLiquidity = IctLiquidity(price: real, volume: real, time: int)

  /** `_calculateVolumeThreshold`: one and a half times the mean volume. */
  function VolumeThreshold(data: seq<Candle>): real
    requires |data| > 0
  {
    AverageVolume(data) * 1.5
  }

  function HeavyAt(data: seq<Candle>, j: int): seq<IctLiquidity> {
    if 0 <= j < |data| && data[j].volume > VolumeThreshold(data) then [IctLiquidity(data[j].close, data[j].volume, data[j].time)] else []
  }

  function HeavyEmitter(data: seq<Candle>): (e: int -> seq<IctLiquidity>)
    ensures forall j :: e(j) == HeavyAt(data, j)
  {
    j => HeavyAt(data, j)
  }

  ghost predicate HeavyCandle(data: seq<Candle>, j: int, l: IctLiquidity)
    requires 0 <= j < |data|
  {
    data[j].volume > VolumeThreshold(data) && l == IctLiquidity(data[j].close, data[j].volume, data[j].time)
  }

  function LevelOf(c: Candle): IctLiquidity {
    IctLiquidity(c.close, c.volume, c.time)
  }

  /** The volume test of `_findLiquidityLevels`, as a predicate on candles. */
  function HeavyTest(data: seq<Candle>): (p: Candle -> bool)
    ensures forall c :: p(c) == (|data| > 0 && c.volume > VolumeThreshold(data))
  {
    (c: Candle) => |data| > 0 && c.volume > VolumeThreshold(data)
  }

  /** `_findLiquidityLevels`: the candles whose volume exceeds the
      threshold, in candle order. An empty window has no threshold (the mean
      is `0 / 0`) and no levels. */
  function IctLiquidityLevels(data: seq<Candle>): (r: seq<IctLiquidity>)
    ensures data == [] ==> r == []
    ensures forall l :: l in r <==> exists j :: 0 <= j < |data| && HeavyCandle(data, j, l)
    ensures r == Map(LevelOf, Filter(HeavyTest(data), data))
  {
    var r := Scan(0, |data|, HeavyEmitter(data));
    HeavyMembers(data, r);
    ScanFilterMap(data, |data|, HeavyEmitter(data), HeavyTest(data), LevelOf);
    assert data[..|data|] == data;
    r
  }

  lemma HeavyAtMembers(data: seq<Candle>, j: int, l: IctLiquidity)
    requires 0 <= j < |data|
    ensures l in HeavyAt(data, j) <==> HeavyCandle(data, j, l)
  {
  }

  lemma HeavyMembers(data: seq<Candle>, r: seq<IctLiquidity>)
    requires r == Scan(0, |data|, HeavyEmitter(data))
    ensures data == [] ==> r == []
    ensures forall l :: l in r <==> exists j :: 0 <= j < |data| && HeavyCandle(data, j, l)
  {
    var e := HeavyEmitter(data);
    forall l | l in r ensures exists j :: 0 <= j < |data| && HeavyCandle(data, j, l) {
      var j :| 0 <= j < |data| && l in e(j);
      HeavyAtMembers(data, j, l);
    }
    forall l | exists j :: 0 <= j < |data| && HeavyCandle(data, j, l) ensures l in r {
      var j :| 0 <= j < |data| && HeavyCandle(data, j, l);
      HeavyAtMembers(data, j, l);
      assert l in e(j);
    }
  }

  /** With non-negative volumes, not every candle can exceed one and a half
      times the mean: some candle of a non-empty window is never a
      liquidity level. */
  lemma NotAllCandlesHeavy(data: seq<Candle>)
    requires Valid(data) && |data| > 0
    ensures exists j :: 0 <= j < |data| && data[j].volume <= VolumeThreshold(data)
  {
    var m := AverageVolume(data);
    var j :| 0 <= j < |data| && data[j].volume <= m;
    assert WellFormed(data[j]);
    assert data[j].volume <= VolumeThreshold(data);
  }

  datatype ZoneKind = Premium | Discount

  datatype Zone = Zone(kind: ZoneKind, upper: real, lower: real, reference: real)

  function ZoneAround(kind: ZoneKind, reference: real, atr: real): (z: Zone)
    requires atr >= 0.0
    ensures z.kind == kind && z.reference == reference
    ensures z.lower <= z.reference <= z.upper && z.upper - z.reference == atr && z.reference - z.lower == atr
  {
    Zone(kind, reference + atr, reference - atr, reference)
  }

  function ZonesAround(kind: ZoneKind, refs: seq<real>, atr: real): (r: seq<Zone>)
    requires atr >= 0.0
    ensures |r| == |refs|
    ensures forall k :: 0 <= k < |refs| ==> r[k] == ZoneAround(kind, refs[k], atr)
  {
    seq(|refs|, k requires 0 <= k < |refs| => ZoneAround(kind, refs[k], atr))
  }

  /** `_findPremiumDiscountZones`: a premium zone one ATR either side of each
      swing high, then a discount zone around each swing low. */
  function PremiumDiscountZones(highs: seq<real>, lows: seq<real>, atr: real): (r: seq<Zone>)
    requires atr >= 0.0
    ensures |r| == |highs| + |lows|
    ensures forall k :: 0 <= k < |highs| ==> r[k].kind == Premium && r[k].reference == highs[k]
    ensures forall k :: |highs| <= k < |r| ==> r[k].kind == Discount && r[k].reference == lows[k - |highs|]
    ensures forall k :: 0 <= k < |r| ==> r[k].lower == r[k].reference - atr && r[k].upper == r[k].reference + atr
  {
    var hs := ZonesAround(Premium, highs, atr);
    var ls := ZonesAround(Discount, lows, atr);
    hs + ls
  }

  predicate InZone(price: real, z: Zone) {
    z.lower <= price <= z.upper
  }

  lemma ZoneReferences(highs: seq<real>, lows: seq<real>, atr: real, k: int)
    requires atr >= 0.0 && 0 <= k < |highs| + |lows|
    ensures PremiumDiscountZones(highs, lows, atr)[k].reference == (highs + lows)[k]
  {
  }

  /** The `k`-th zone contains the price exactly when the `k`-th swing is
      within one ATR of it. */
  lemma ZoneAt(highs: seq<real>, lows: seq<real>, atr: real, price: real, k: int)
    requires atr >= 0.0 && 0 <= k < |highs| + |lows|
    ensures InZone(price, PremiumDiscountZones(highs, lows, atr)[k]) <==> Abs(price - (highs + lows)[k]) <= atr
  {
    ZoneReferences(highs, lows, atr, k);
  }

  /** Being inside some zone is being within one ATR of some swing. */
  lemma InZonesIffNearSwing(highs: seq<real>, lows: seq<real>, atr: real, price: real)
    requires atr >= 0.0
    ensures (exists z :: z in PremiumDiscountZones(highs, lows, atr) && InZone(price, z))
      <==> (exists s :: s in highs + lows && Abs(price - s) <= atr)
  {
    var zs := PremiumDiscountZones(highs, lows, atr);
    var refs := highs + lows;
    if exists z :: z in zs && InZone(price, z) {
      var z :| z in zs && InZone(price, z);
      var k :| 0 <= k < |zs| && zs[k] == z;
      ZoneAt(highs, lows, atr, price, k);
      assert refs[k] in refs;
    }
    if exists s :: s in refs && Abs(price - s) <= atr {
      var s :| s in refs && Abs(price - s) <= atr;
      var k :| 0 <= k < |refs| && refs[k] == s;
      ZoneAt(highs, lows, atr, price, k);
      assert zs[k] in zs;
    }
  }

  /** `Math.abs(p - level.price) / level.price < 0.001`; a zero level price
      divides to Infinity or NaN, and neither is below the bound. */
  predicate NearLevel(price: real, l: IctLiquidity) {
    l.price != 0.0 && Abs(price - l.price) / l.price < 0.001
  }

  /** The fields of an `IctAnalyzer` instance. */
  datatype IctState = IctState(
    fairValueGaps: seq<Fvg>,
    zones: seq<Zone>,
    swingHighs: seq<real>,
    swingLows: seq<real>,
    trend: Option<Trend>)

  const InitialIct: IctState := IctState([], [], [], [], None)

  /** `identifyFvg` as a state step. */
  function WithFvgs(s: IctState, data: seq<Candle>): (r: IctState)
    ensures r.fairValueGaps == IdentifyFvg(data)
    ensures r.zones == s.zones && r.swingHighs == s.swingHighs && r.swingLows == s.swingLows && r.trend == s.trend
  {
    s.(fairValueGaps := IdentifyFvg(data))
  }

  /** An entry found by `findOptimalEntries`; its context records the trend
      (both other context flags are always true). */
  datatype Entry = Entry(price: real, kind: LevelKind, strength: real, time: int, trend: Trend)

  function EntryOf(b: IctBlock, trend: Trend): Entry {
    Entry(b.price, b.kind, b.strength, b.time, trend)
  }

  /** The block sits near some liquidity level and inside some zone. */
  predicate IsEntry(b: IctBlock, levels: seq<IctLiquidity>, zones: seq<Zone>) {
    (exists l :: l in levels && NearLevel(b.price, l)) && (exists z :: z in zones && InZone(b.price, z))
  }

  function EntryTest(levels: seq<IctLiquidity>, zones: seq<Zone>): (p: IctBlock -> bool)
    ensures forall b :: p(b) == IsEntry(b, levels, zones)
  {
    b => IsEntry(b, levels, zones)
  }

  function Tagger(trend: Trend): (f: IctBlock -> Entry)
    ensures forall b :: f(b) == EntryOf(b, trend)
  {
    b => EntryOf(b, trend)
  }

  /** The `forEach` of `findOptimalEntries`: one entry per qualifying block,
      in block order. */
  function EntriesFrom(blocks: seq<IctBlock>, levels: seq<IctLiquidity>, zones: seq<Zone>, trend: Trend): (r: seq<Entry>)
    ensures |r| <= |blocks|
    ensures forall e :: e in r <==> exists b :: b in blocks && IsEntry(b, levels, zones) && e == EntryOf(b, trend)
    ensures r == Map(Tagger(trend), Filter(EntryTest(levels, zones), blocks))
  {
    if blocks == [] then []
    else
      var rest := EntriesFrom(blocks[1..], levels, zones, trend);
      assert forall b :: b in blocks <==> b == blocks[0] || b in blocks[1..];
      FilterCons(EntryTest(levels, zones), blocks);
      if IsEntry(blocks[0], levels, zones) then
        MapCons(Tagger(trend), blocks[0], Filter(EntryTest(levels, zones), blocks[1..]));
        [EntryOf(blocks[0], trend)] + rest
      else rest
  }

  /** The ICT state after `findOptimalEntries`, and its entries; `None`
      when it throws. */
  datatype EntryResult = EntryResult(state: IctState, entries: Option<seq<Entry>>)

  /** `findOptimalEntries`: refreshes the swings and trend, then the zones,
      and keeps the reversal blocks that are both near a volume-spike level
      and inside a premium/discount zone, tagged with the fresh trend. The
      zone ATR reads 14 candles: on a shorter window it throws after the
      swings and trend were refreshed, leaving the zones as they were. The
      gaps are never touched. */
  function FindOptimalEntries(s: IctState, data: seq<Candle>): (r: EntryResult)
    ensures r.state.swingHighs == Prices(SwingHighs(data)) && r.state.swingLows == Prices(SwingLows(data))
    ensures r.state.trend == Some(DetermineTrend(r.state.swingHighs, r.state.swingLows))
    ensures r.state.fairValueGaps == s.fairValueGaps
    ensures r.entries.None? <==> |data| < AtrPeriod
    ensures r.entries.None? ==> r.state.zones == s.zones
    ensures r.entries.Some? ==> r.state.zones == PremiumDiscountZones(r.state.swingHighs, r.state.swingLows, Atr(data))
    ensures r.entries.Some? ==> forall e :: e in r.entries.value <==>
      exists b :: b in IctOrderBlocks(data) && IsEntry(b, IctLiquidityLevels(data), r.state.zones) && e == EntryOf(b, r.state.trend.value)
    ensures r.entries.Some? ==>
      r.entries.value == Map(Tagger(r.state.trend.value), Filter(EntryTest(IctLiquidityLevels(data), r.state.zones), IctOrderBlocks(data)))
  {
    var highs := Prices(SwingHighs(data));
    var lows := Prices(SwingLows(data));
    var trend := DetermineTrend(highs, lows);
    var st := s.(swingHighs := highs, swingLows := lows, trend := Some(trend));
    if |data| < AtrPeriod then EntryResult(st, None)
    else
      var zones := PremiumDiscountZones(highs, lows, Atr(data));
      EntryResult(st.(zones := zones), Some(EntriesFrom(IctOrderBlocks(data), IctLiquidityLevels(data), zones, trend)))
  }

  function Negated(x: real): real {
    -x
  }

  function Itself(x: real): real {
    x
  }

  /** `Array.prototype.find(l => l > price)`, as a position. */
  function FirstAbove(s: seq<real>, price: real): (r: Option<nat>)
    ensures r.None? <==> forall k :: 0 <= k < |s| ==> s[k] <= price
    ensures r.Some? ==> r.value < |s| && s[r.value] > price
    ensures r.Some? ==> forall j :: 0 <= j < r.value ==> s[j] <= price
  {
    if s == [] then None
    else if s[0] > price then Some(0)
    else
      var r := FirstAbove(s[1..], price);
      assert forall k :: 1 <= k < |s| ==> s[k] == s[1..][k - 1];
      if r.Some? then Some(r.value + 1) else None
  }

  /** `Array.prototype.find(l => l < price)`, as a position. */
  function FirstBelow(s: seq<real>, price: real): (r: Option<nat>)
    ensures r.None? <==> forall k :: 0 <= k < |s| ==> s[k] >= price
    ensures r.Some? ==> r.value < |s| && s[r.value] < price
    ensures r.Some? ==> forall j :: 0 <= j < r.value ==> s[j] >= price
  {
    if s == [] then None
    else if s[0] < price then Some(0)
    else
      var r := FirstBelow(s[1..], price);
      assert forall k :: 1 <= k < |s| ==> s[k] == s[1..][k - 1];
      if r.Some? then Some(r.value + 1) else None
  }

  /** The side of a trade. */
  datatype Direction = Long | Short

  /** In an ascending list the first entry above the price is the least
      entry above it. */
  lemma FirstAboveIsLeast(sorted: seq<real>, price: real)
    requires NonIncreasing(sorted, Negated)
    requires FirstAbove(sorted, price).Some?
    ensures forall x :: x in sorted && x > price ==> sorted[FirstAbove(sorted, price).value] <= x
  {
    var k := FirstAbove(sorted, price).value;
    forall x | x in sorted && x > price ensures sorted[k] <= x {
      var j :| 0 <= j < |sorted| && sorted[j] == x;
      if j > k {
        assert Negated(sorted[j]) <= Negated(sorted[k]);
      }
    }
  }

  /** In a descending list the first entry below the price is the greatest
      entry below it. */
  lemma FirstBelowIsGreatest(sorted: seq<real>, price: real)
    requires NonIncreasing(sorted, Itself)
    requires FirstBelow(sorted, price).Some?
    ensures forall x :: x in sorted && x < price ==> x <= sorted[FirstBelow(sorted, price).value]
  {
    var k := FirstBelow(sorted, price).value;
    forall x | x in sorted && x < price ensures x <= sorted[k] {
      var j :| 0 <= j < |sorted| && sorted[j] == x;
      if j > k {
        assert Itself(sorted[j]) <= Itself(sorted[k]);
      }
    }
  }

  /** The `long` branch: sorted ascending, the first level above the
      price, which is the least level above it. */
  function NextAbove(levels: seq<real>, price: real): (r: Option<real>)
    ensures r.None? <==> forall x :: x in levels ==> x <= price
    ensures r.Some? ==> r.value in levels && r.value > price
    ensures r.Some? ==> forall x :: x in levels && x > price ==> r.value <= x
  {
    var sorted := SortDesc(levels, Negated);
    SameElements(levels, sorted);
    var k := FirstAbove(sorted, price);
    if k.Some? then
      FirstAboveIsLeast(sorted, price);
      assert sorted[k.value] in sorted;
      Some(sorted[k.value])
    else
      assert forall x :: x in sorted ==> x <= price;
      None
  }

  /** The `short` branch: sorted descending, the first level below the
      price, which is the greatest level below it. */
  function NextBelow(levels: seq<real>, price: real): (r: Option<real>)
    ensures r.None? <==> forall x :: x in levels ==> x >= price
    ensures r.Some? ==> r.value in levels && r.value < price
    ensures r.Some? ==> forall x :: x in levels && x < price ==> x <= r.value
  {
    var sorted := SortDesc(levels, Itself);
    SameElements(levels, sorted);
    var k := FirstBelow(sorted, price);
    if k.Some? then
      FirstBelowIsGreatest(sorted, price);
      assert sorted[k.value] in sorted;
      Some(sorted[k.value])
    else
      assert forall x :: x in sorted ==> x >= price;
      None
  }

  /** `_findNextStructureLevel`: the swing prices sorted towards the trade
      (ascending for a long, descending for a short), then the first one
      beyond the price. That is the nearest swing beyond the price, and there
      is none exactly when no swing lies beyond it. */
  function NextStructureLevel(highs: seq<real>, lows: seq<real>, price: real, side: Direction): (r: Option<real>)
    ensures r.Some? ==> r.value in highs + lows
    ensures side == Long ==> (r.None? <==> forall x :: x in highs + lows ==> x <= price)
    ensures side == Long && r.Some? ==> r.value > price && forall x :: x in highs + lows && x > price ==> r.value <= x
    ensures side == Short ==> (r.None? <==> forall x :: x in highs + lows ==> x >= price)
    ensures side == Short && r.Some? ==> r.value < price && forall x :: x in highs + lows && x < price ==> x <= r.value
  {
    if side == Long then NextAbove(highs + lows, price) else NextBelow(highs + lows, price)
  }
}

=== FILE: numeric.dfy ===
/** Optional values: the model's stand-in for JavaScript's `undefined`/`null`
    results and for a computation that throws. */
module Options {
  datatype Option<+T> = None | Some(value: T)
}

/** Real-number helpers that mirror the JavaScript `Math` functions the
    analyzers use, plus the extended reals needed where JavaScript produces
    an infinity. */
module Numeric {

  function Abs(x: real): (r: real)
    ensures r >= 0.0
    ensures r == x || r == -x
  {
    if x < 0.0 then -x else x
  }

  function Min(a: real, b: real): (r: real)
    ensures r <= a && r <= b
    ensures r == a || r == b
  {
    if a <= b then a else b
  }

  function Max(a: real, b: real): (r: real)
    ensures r >= a && r >= b
    ensures r == a || r == b
  {
    if a >= b then a else b
  }

  /** `Math.round`: rounds to the nearest integer, halves upward. */
  function Round(x: real): (r: int)
    ensures x - 0.5 < r as real <= x + 0.5
  {
    (x + 0.5).Floor
  }

  lemma RoundMonotone(x: real, y: real)
    requires x <= y
    ensures Round(x) <= Round(y)
  {
  }

  lemma RoundShift(x: real, n: int)
    ensures Round(x + n as real) == Round(x) + n
  {
  }

  /** `Math.min(hi, Math.max(lo, x))` on integers. */
  function Clamp(x: int, lo: int, hi: int): (r: int)
    requires lo <= hi
    ensures lo <= r <= hi
    ensures lo <= x <= hi ==> r == x
    ensures x < lo ==> r == lo
    ensures hi < x ==> r == hi
  {
    if x < lo then lo else if hi < x then hi else x
  }

  /** The same clamp on reals. */
  function ClampReal(x: real, lo: real, hi: real): (r: real)
    requires lo <= hi
    ensures lo <= r <= hi
    ensures lo <= x <= hi ==> r == x
  {
    Min(hi, Max(lo, x))
  }

  /** A JavaScript number: finite, one of the two infinities, or NaN. */
  datatype ExtReal = Fin(value: real) | NegInf | PosInf | NaN

  /** JavaScript's `a / b`: a zero divisor gives an infinity of the
      dividend's sign, or NaN for `0 / 0`. */
  function Div(a: real, b: real): (r: ExtReal)
    ensures r.Fin? <==> b != 0.0
    ensures r.Fin? ==> r.value * b == a
    ensures r == PosInf <==> b == 0.0 && a > 0.0
    ensures r == NegInf <==> b == 0.0 && a < 0.0
  {
    if b != 0.0 then Fin(a / b)
    else if a > 0.0 then PosInf
    else if a < 0.0 then NegInf
    else NaN
  }

  const FixedScale: real := 100000000.0

  /** Half of the last place kept by `toFixed(8)`: `0.5 / FixedScale`. */
  const HalfUnit: real := 0.000000005

  /** `parseFloat(x.toFixed(8))` on a finite number: the nearest multiple of
      1e-8, ties rounded away from zero (toFixed rounds the magnitude). */
  function ToFixed8(x: real): (r: real)
    ensures Abs(r - x) <= HalfUnit
    ensures x >= 0.0 ==> r >= 0.0
  {
    if x >= 0.0 then Round(x * FixedScale) as real / FixedScale
    else -(Round(-x * FixedScale) as real / FixedScale)
  }

  /** The `n`-th multiple of 1e-8. */
  function GridPoint(n: int): real {
    n as real / FixedScale
  }

  /** `Math.round` lands on a nearest integer: no integer is closer. */
  lemma RoundNearest(y: real, n: int)
    ensures Abs(Round(y) as real - y) <= Abs(n as real - y)
  {
    var r := Round(y);
    if n > r {
      assert n as real >= r as real + 1.0;
    } else if n < r {
      assert n as real <= r as real - 1.0;
    }
  }

  /** The round trip lands on the 1e-8 grid: scaled back up it is the
      rounded magnitude, with the sign of the argument. */
  lemma ToFixed8OnGrid(x: real)
    ensures x >= 0.0 ==> ToFixed8(x) * FixedScale == Round(x * FixedScale) as real
    ensures x < 0.0 ==> ToFixed8(x) * FixedScale == -(Round(-x * FixedScale) as real)
    ensures exists n: int :: ToFixed8(x) == GridPoint(n)
  {
    if x >= 0.0 {
      assert ToFixed8(x) * FixedScale == Round(x * FixedScale) as real;
      assert ToFixed8(x) == GridPoint(Round(x * FixedScale));
    } else {
      assert ToFixed8(x) * FixedScale == (-Round(-x * FixedScale)) as real;
      assert ToFixed8(x) == GridPoint(-Round(-x * FixedScale));
    }
  }

  /** No multiple of 1e-8 is nearer to `x` than its round trip. */
  lemma ToFixed8Nearest(x: real, n: int)
    ensures Abs(ToFixed8(x) - x) <= Abs(GridPoint(n) - x)
  {
    if x >= 0.0 {
      var y := x * FixedScale;
      RoundNearest(y, n);
      assert ToFixed8(x) - x == (Round(y) as real - y) / FixedScale;
      assert n as real / FixedScale - x == (n as real - y) / FixedScale;
    } else {
      var y := -x * FixedScale;
      RoundNearest(y, -n);
      assert ToFixed8(x) - x == -((Round(y) as real - y) / FixedScale);
      assert n as real / FixedScale - x == -(((-n) as real - y) / FixedScale);
    }
  }

  /** Rounding to eight decimals never reverses an order. */
  lemma ToFixed8Monotone(x: real, y: real)
    requires x <= y
    ensures ToFixed8(x) <= ToFixed8(y)
  {
    if 0.0 <= x {
      RoundMonotone(x * FixedScale, y * FixedScale);
    } else if y < 0.0 {
      RoundMonotone(-y * FixedScale, -x * FixedScale);
    }
  }

  /** `parseFloat(t.toFixed(8))` on any number: infinities and NaN print as
      "Infinity", "-Infinity" and "NaN" and parse back unchanged. */
  function ToFixed8Ext(t: ExtReal): (r: ExtReal)
    ensures r.Fin? <==> t.Fin?
    ensures t.Fin? ==> Abs(r.value - t.value) <= HalfUnit
    ensures !t.Fin? ==> r == t
  {
    match t
    case Fin(v) => Fin(ToFixed8(v))
    case _ => t
  }
}

=== FILE: seqs.dfy ===
/** Sequence combinators shared by every scan in the analyzers: the list a
    counted `for` loop builds with `push`, mapping, filtering, and the stable
    descending sort that `Array.prototype.sort` performs with a
    `(a, b) => key(b) - key(a)` comparator. */
module Seqs {
  import opened Options

  /** The list built by `for (let i = lo; i < hi; i++) list.push(...emit(i))`:
      the items of iteration `lo`, then those of `lo + 1`, and so on. */
  function Scan<T(!new)>(lo: int, hi: int, emit: int -> seq<T>): (r: seq<T>)
    ensures forall x :: x in r <==> exists i :: lo <= i < hi && x in emit(i)
    decreases hi - lo
  {
    if hi <= lo then [] else Scan(lo, hi - 1, emit) + emit(hi - 1)
  }

  /** A loop that pushes at most one item per iteration pushes at most one
      item per index. */
  lemma {:induction false} ScanAtMostOne<T(!new)>(lo: int, hi: int, emit: int -> seq<T>)
    requires lo <= hi
    requires forall i :: lo <= i < hi ==> |emit(i)| <= 1
    ensures |Scan(lo, hi, emit)| <= hi - lo
    decreases hi - lo
  {
    if lo < hi {
      ScanAtMostOne(lo, hi - 1, emit);
    }
  }

  ghost predicate StrictlyAscending<T>(s: seq<T>, key: T -> int) {
    forall a, b :: 0 <= a < b < |s| ==> key(s[a]) < key(s[b])
  }

  /** When every iteration pushes at most one item and items of later
      iterations carry larger keys, the list comes out in strictly ascending
      key order: the scan keeps iteration order. */
  lemma {:induction false} ScanAscending<T(!new)>(lo: int, hi: int, emit: int -> seq<T>, key: T -> int)
    requires forall i :: lo <= i < hi ==> |emit(i)| <= 1
    requires forall i, j, x, y :: lo <= i < j < hi && x in emit(i) && y in emit(j) ==> key(x) < key(y)
    ensures StrictlyAscending(Scan(lo, hi, emit), key)
    decreases hi - lo
  {
    if lo < hi {
      ScanAscending(lo, hi - 1, emit, key);
      var front := Scan(lo, hi - 1, emit);
      var r := Scan(lo, hi, emit);
      assert r == front + emit(hi - 1);
      forall a, b | 0 <= a < b < |r|
        ensures key(r[a]) < key(r[b])
      {
        if b < |front| {
          assert r[a] == front[a] && r[b] == front[b];
        } else {
          assert a < |front| by {
            assert |emit(hi - 1)| <= 1;
          }
          assert r[a] == front[a] && r[a] in front;
          var i :| lo <= i < hi - 1 && r[a] in emit(i);
          assert r[b] in emit(hi - 1);
        }
      }
    }
  }

  function Map<T, U>(f: T -> U, s: seq<T>): (r: seq<U>)
    ensures |r| == |s|
    ensures forall k :: 0 <= k < |s| ==> r[k] == f(s[k])
  {
    seq(|s|, k requires 0 <= k < |s| => f(s[k]))
  }

  /** An element of a mapped list is the image of an element of the list. */
  lemma MapMembers<T(!new), U(!new)>(f: T -> U, s: seq<T>)
    ensures forall y :: y in Map(f, s) <==> exists x :: x in s && y == f(x)
  {
    forall y ensures y in Map(f, s) <==> exists x :: x in s && y == f(x) {
      if exists x :: x in s && y == f(x) {
        var x :| x in s && y == f(x);
        var k :| 0 <= k < |s| && s[k] == x;
        assert Map(f, s)[k] == y;
      }
    }
  }

  lemma MapConcat<T, U>(f: T -> U, a: seq<T>, b: seq<T>)
    ensures Map(f, a + b) == Map(f, a) + Map(f, b)
  {
    assert forall k :: 0 <= k < |a + b| ==> Map(f, a + b)[k] == (Map(f, a) + Map(f, b))[k];
  }

  lemma MapCons<T, U>(f: T -> U, x: T, s: seq<T>)
    ensures Map(f, [x] + s) == [f(x)] + Map(f, s)
  {
    assert forall k :: 0 <= k < |s| + 1 ==> Map(f, [x] + s)[k] == ([f(x)] + Map(f, s))[k];
  }

  /** Two scans whose iterations push corresponding items build
      corresponding lists. */
  lemma {:induction false} ScanMap<T(!new), U(!new)>(lo: int, hi: int, e1: int -> seq<T>, e2: int -> seq<U>, f: T -> U)
    requires forall i :: lo <= i < hi ==> e2(i) == Map(f, e1(i))
    ensures Scan(lo, hi, e2) == Map(f, Scan(lo, hi, e1))
    decreases hi - lo
  {
    if lo < hi {
      ScanMap(lo, hi - 1, e1, e2, f);
      MapConcat(f, Scan(lo, hi - 1, e1), e1(hi - 1));
    }
  }

  /** `Array.prototype.filter`. */
  function Filter<T(!new)>(p: T -> bool, s: seq<T>): (r: seq<T>)
    ensures |r| <= |s|
    ensures forall x :: x in r <==> x in s && p(x)
  {
    if s == [] then []
    else if p(s[0]) then [s[0]] + Filter(p, s[1..])
    else Filter(p, s[1..])
  }

  /** Filtering a list is filtering its head, then its tail. */
  lemma FilterCons<T(!new)>(p: T -> bool, s: seq<T>)
    requires s != []
    ensures Filter(p, s) == (if p(s[0]) then [s[0]] else []) + Filter(p, s[1..])
  {
  }

  /** Filtering a list with one more item at the end. */
  lemma FilterSnoc<T(!new)>(p: T -> bool, a: seq<T>, x: T)
    ensures Filter(p, a + [x]) == Filter(p, a) + (if p(x) then [x] else [])
  {
    FilterConcat(p, a, [x]);
    FilterCons(p, [x]);
  }

  /** A scan over a list whose iteration `i` pushes `f(s[i])` exactly when
      `s[i]` passes `p` builds the mapped filter of the list, in order. */
  lemma {:induction false} ScanFilterMap<T(!new), U(!new)>(s: seq<T>, n: nat, emit: int -> seq<U>, p: T -> bool, f: T -> U)
    requires n <= |s|
    requires forall i :: 0 <= i < |s| ==> emit(i) == (if p(s[i]) then [f(s[i])] else [])
    ensures Scan(0, n, emit) == Map(f, Filter(p, s[..n]))
  {
    if n > 0 {
      var x := s[n - 1];
      var tail := if p(x) then [x] else [];
      calc {
        Scan(0, n, emit);
        Scan(0, n - 1, emit) + emit(n - 1);
        { ScanFilterMap(s, n - 1, emit, p, f); assert emit(n - 1) == Map(f, tail); }
        Map(f, Filter(p, s[..n - 1])) + Map(f, tail);
        { MapConcat(f, Filter(p, s[..n - 1]), tail); }
        Map(f, Filter(p, s[..n - 1]) + tail);
        { FilterSnoc(p, s[..n - 1], x); }
        Map(f, Filter(p, s[..n - 1] + [x]));
        { assert s[..n - 1] + [x] == s[..n]; }
        Map(f, Filter(p, s[..n]));
      }
    } else {
      assert s[..0] == [];
    }
  }

  /** Two lists with the same multiset have the same elements. */
  lemma SameElements<T>(a: seq<T>, b: seq<T>)
    requires multiset(a) == multiset(b)
    ensures forall x :: x in a <==> x in b
  {
    forall x ensures x in a <==> x in b {
      assert x in a <==> x in multiset(a);
      assert x in b <==> x in multiset(b);
    }
  }

  /** Nothing passes a filter that no element satisfies. */
  lemma {:induction false} FilterNone<T(!new)>(p: T -> bool, s: seq<T>)
    requires forall k :: 0 <= k < |s| ==> !p(s[k])
    ensures Filter(p, s) == []
  {
    if s != [] {
      assert forall k :: 0 <= k < |s[1..]| ==> s[1..][k] == s[k + 1];
      FilterNone(p, s[1..]);
    }
  }

  /** Filtering keeps relative order: it distributes over concatenation. */
  lemma {:induction false} FilterConcat<T(!new)>(p: T -> bool, a: seq<T>, b: seq<T>)
    ensures Filter(p, a + b) == Filter(p, a) + Filter(p, b)
  {
    if a != [] {
      assert (a + b)[0] == a[0];
      assert (a + b)[1..] == a[1..] + b;
      FilterConcat(p, a[1..], b);
    } else {
      assert a + b == b;
    }
  }

  /** `Array.prototype.find`, as the position of the first element that
      satisfies `p`. */
  function FindIndex<T>(p: T -> bool, s: seq<T>): (r: Option<nat>)
    ensures r.None? <==> forall k :: 0 <= k < |s| ==> !p(s[k])
    ensures r.Some? ==> r.value < |s| && p(s[r.value])
    ensures r.Some? ==> forall j :: 0 <= j < r.value ==> !p(s[j])
  {
    if s == [] then None
    else if p(s[0]) then Some(0)
    else
      var r := FindIndex(p, s[1..]);
      assert forall k :: 1 <= k < |s| ==> s[k] == s[1..][k - 1];
      if r.Some? then Some(r.value + 1) else None
  }

  ghost predicate NonIncreasing<T>(s: seq<T>, key: T -> real) {
    forall a, b :: 0 <= a < b < |s| ==> key(s[b]) <= key(s[a])
  }

  /** Inserts `x` before the first element whose key does not exceed its own,
      so that elements of equal key keep their relative order. */
  function Insert<T>(x: T, s: seq<T>, key: T -> real): (r: seq<T>)
    ensures multiset(r) == multiset(s) + multiset{x}
    ensures |r| == |s| + 1
    ensures r[0] == x || (s != [] && r[0] == s[0])
  {
    if s == [] || key(s[0]) <= key(x) then [x] + s
    else
      assert s == [s[0]] + s[1..];
      [s[0]] + Insert(x, s[1..], key)
  }

  /** Insertion keeps a non-increasing list non-increasing. */
  lemma {:induction false} InsertSorted<T>(x: T, s: seq<T>, key: T -> real)
    requires NonIncreasing(s, key)
    ensures NonIncreasing(Insert(x, s, key), key)
  {
    if s != [] && key(x) < key(s[0]) {
      var rest := Insert(x, s[1..], key);
      InsertSorted(x, s[1..], key);
      var r := [s[0]] + rest;
      assert key(rest[0]) <= key(s[0]);
      forall a, b | 0 <= a < b < |r| ensures key(r[b]) <= key(r[a]) {
        if a == 0 {
          assert r[b] == rest[b - 1];
          if b > 1 {
            assert key(rest[b - 1]) <= key(rest[0]);
          }
        } else {
          assert r[a] == rest[a - 1] && r[b] == rest[b - 1];
        }
      }
    } else {
      assert s != [] ==> key(s[0]) <= key(x);
      var r := [x] + s;
      forall a, b | 0 <= a < b < |r| ensures key(r[b]) <= key(r[a]) {
        if a == 0 {
          assert r[b] == s[b - 1];
          assert key(s[b - 1]) <= key(s[0]);
        } else {
          assert r[a] == s[a - 1] && r[b] == s[b - 1];
        }
      }
    }
  }

  /** The stable sort `list.sort((a, b) => key(b) - key(a))`: a permutation
      of the input in non-increasing key order. */
  function SortDesc<T>(s: seq<T>, key: T -> real): (r: seq<T>)
    ensures multiset(r) == multiset(s)
    ensures |r| == |s|
    ensures NonIncreasing(r, key)
  {
    if s == [] then []
    else
      assert s == [s[0]] + s[1..];
      var sorted := SortDesc(s[1..], key);
      InsertSorted(s[0], sorted, key);
      Insert(s[0], sorted, key)
  }

  /** The head of a descending sort carries the greatest key of the input. */
  lemma SortDescHeadIsMax<T>(s: seq<T>, key: T -> real)
    requires s != []
    ensures SortDesc(s, key)[0] in s
    ensures forall x :: x in s ==> key(x) <= key(SortDesc(s, key)[0])
  {
    var r := SortDesc(s, key);
    assert r[0] in multiset(r);
    forall x | x in s ensures key(x) <= key(r[0]) {
      assert x in multiset(s);
      assert x in r;
      var b :| 0 <= b < |r| && r[b] == x;
      if b > 0 {
        assert key(r[b]) <= key(r[0]);
      }
    }
  }

  /** The elements whose key is `v`. */
  function KeyIs<T(!new)>(key: T -> real, v: real): (p: T -> bool)
    ensures forall x :: p(x) == (key(x) == v)
  {
    x => key(x) == v
  }

  /** Insertion moves `x` only past elements of greater key: among the
      elements of any one key, the result lists them as `[x] + s` does. */
  lemma {:induction false} InsertStable<T(!new)>(x: T, s: seq<T>, key: T -> real, v: real)
    ensures Filter(KeyIs(key, v), Insert(x, s, key)) == Filter(KeyIs(key, v), [x] + s)
  {
    var p := KeyIs(key, v);
    if !(s == [] || key(s[0]) <= key(x)) {
      var rest := Insert(x, s[1..], key);
      InsertStable(x, s[1..], key, v);
      assert s == [s[0]] + s[1..];
      FilterCons(p, [s[0]] + rest);
      assert ([s[0]] + rest)[1..] == rest;
      FilterCons(p, [x] + s[1..]);
      assert ([x] + s[1..])[1..] == s[1..];
      FilterCons(p, [x] + s);
      assert ([x] + s)[1..] == s;
      FilterCons(p, s);
    }
  }

  /** `SortDesc` is stable: the elements of any one key come out in the
      order they went in. */
  lemma {:induction false} SortDescStable<T(!new)>(s: seq<T>, key: T -> real, v: real)
    ensures Filter(KeyIs(key, v), SortDesc(s, key)) == Filter(KeyIs(key, v), s)
  {
    if s != [] {
      var p := KeyIs(key, v);
      var sorted := SortDesc(s[1..], key);
      SortDescStable(s[1..], key, v);
      InsertStable(s[0], sorted, key, v);
      FilterCons(p, [s[0]] + sorted);
      assert ([s[0]] + sorted)[1..] == sorted;
      FilterCons(p, s);
    }
  }

  /** Stability for every key at once. */
  lemma SortDescStableAll<T(!new)>(s: seq<T>, key: T -> real)
    ensures forall v :: Filter(KeyIs(key, v), SortDesc(s, key)) == Filter(KeyIs(key, v), s)
  {
    forall v ensures Filter(KeyIs(key, v), SortDesc(s, key)) == Filter(KeyIs(key, v), s) {
      SortDescStable(s, key, v);
    }
  }
}

=== FILE: signals.dfy ===
/** The signal generator: long and short setups read off the SMC state, their
    stops, targets, confidence, size, leverage and win rate, and the analysis
    pass that runs both analyzers over the candle window. */
module Signals {
  import opened Options
  import opened Numeric
  import opened Seqs
  import opened Candles
  import opened Swings
  import opened SmcBlocks
  import opened SmcLiquidity
  import opened SmcStructure
  import opened Ict

  /** Wins out of closed trades on one side. */
  datatype TradeRecord = TradeRecord(wins: nat, total: nat)

  datatype TradeHistory = TradeHistory(long: TradeRecord, short: TradeRecord)

  /** The constructor's history; nothing in the generator ever updates it. */
  const FreshHistory: TradeHistory := TradeHistory(TradeRecord(0, 0), TradeRecord(0, 0))

  function RecordFor(h: TradeHistory, d: Direction): TradeRecord {
    if d == Long then h.long else h.short
  }

  /** An unmitigated block of the wanted bias whose entry is within 5% of
      the price. */
  predicate InReach(b: OrderBlock, bias: Bias, price: real) {
    b.bias == bias && !b.mitigated && price >= b.entry * 0.95 && price <= b.entry * 1.05
  }

  function ReachTest(bias: Bias, price: real): (p: OrderBlock -> bool)
    ensures forall b :: p(b) == InReach(b, bias, price)
  {
    b => InReach(b, bias, price)
  }

  /** An unswept support or low stop hunt strictly below the price. */
  predicate Supports(l: LiquidityLevel, price: real) {
    (l.kind == Support || l.kind == StopHuntLow) && l.price < price && !l.swept
  }

  /** An unswept resistance or high stop hunt strictly above the price. */
  predicate Caps(l: LiquidityLevel, price: real) {
    (l.kind == Resistance || l.kind == StopHuntHigh) && l.price > price && !l.swept
  }

  function SupportTest(price: real): (p: LiquidityLevel -> bool)
    ensures forall l :: p(l) == Supports(l, price)
  {
    l => Supports(l, price)
  }

  function CapTest(price: real): (p: LiquidityLevel -> bool)
    ensures forall l :: p(l) == Caps(l, price)
  {
    l => Caps(l, price)
  }

  function LevelPrice(l: LiquidityLevel): real {
    l.price
  }

  function NegatedLevelPrice(l: LiquidityLevel): real {
    -l.price
  }

  predicate AllowsLong(t: Option<Trend>) {
    t == Some(Uptrend) || t == Some(Ranging)
  }

  predicate AllowsShort(t: Option<Trend>) {
    t == Some(Downtrend) || t == Some(Ranging)
  }

  /** A trade setup: the block to enter at, the liquidity level that guards
      it, and the structure it was read from. */
  datatype Setup = Setup(block: OrderBlock, level: LiquidityLevel, structure: MarketStructure)

  /** `b` is the first block of the list in reach of the price. */
  ghost predicate FirstInReach(blocks: seq<OrderBlock>, bias: Bias, price: real, b: OrderBlock) {
    exists k :: 0 <= k < |blocks| && blocks[k] == b && InReach(b, bias, price)
      && forall j :: 0 <= j < k ==> !InReach(blocks[j], bias, price)
  }

  lemma FirstFound(blocks: seq<OrderBlock>, bias: Bias, price: real, k: Option<nat>)
    requires k == FindIndex(ReachTest(bias, price), blocks)
    ensures k.None? <==> forall b :: b in blocks ==> !InReach(b, bias, price)
    ensures k.Some? ==> k.value < |blocks| && FirstInReach(blocks, bias, price, blocks[k.value])
  {
    if k.None? {
      forall b | b in blocks ensures !InReach(b, bias, price) {
        var j :| 0 <= j < |blocks| && blocks[j] == b;
      }
    } else {
      assert blocks[k.value] in blocks;
    }
  }

  /** `checkLongSetup`: a setup exists exactly when some bullish block is in
      reach, some support lies below the price and the trend is up or
      ranging. It takes the first block in reach and the highest support
      below the price. */
  function CheckLongSetup(price: real, blocks: seq<OrderBlock>, levels: seq<LiquidityLevel>, structure: MarketStructure): (r: Option<Setup>)
    ensures r.Some? <==>
      (exists b :: b in blocks && InReach(b, Bullish, price)) && (exists l :: l in levels && Supports(l, price)) && AllowsLong(structure.trend)
    ensures r.Some? ==> FirstInReach(blocks, Bullish, price, r.value.block)
    ensures r.Some? ==> r.value.level in levels && Supports(r.value.level, price)
    ensures r.Some? ==> forall l :: l in levels && Supports(l, price) ==> l.price <= r.value.level.price
    ensures r.Some? ==> r.value.structure == structure
  {
    var k := FindIndex(ReachTest(Bullish, price), blocks);
    FirstFound(blocks, Bullish, price, k);
    var supports := Filter(SupportTest(price), levels);
    var sorted := SortDesc(supports, LevelPrice);
    if k.None? || sorted == [] || !AllowsLong(structure.trend) then None
    else
      SortDescHeadIsMax(supports, LevelPrice);
      Some(Setup(blocks[k.value], sorted[0], structure))
  }

  /** `checkShortSetup`, the mirror image: the first bearish block in reach
      and the lowest resistance above the price, in a down or ranging
      trend. */
  function CheckShortSetup(price: real, blocks: seq<OrderBlock>, levels: seq<LiquidityLevel>, structure: MarketStructure): (r: Option<Setup>)
    ensures r.Some? <==>
      (exists b :: b in blocks && InReach(b, Bearish, price)) && (exists l :: l in levels && Caps(l, price)) && AllowsShort(structure.trend)
    ensures r.Some? ==> FirstInReach(blocks, Bearish, price, r.value.block)
    ensures r.Some? ==> r.value.level in levels && Caps(r.value.level, price)
    ensures r.Some? ==> forall l :: l in levels && Caps(l, price) ==> r.value.level.price <= l.price
    ensures r.Some? ==> r.value.structure == structure
  {
    var k := FindIndex(ReachTest(Bearish, price), blocks);
    FirstFound(blocks, Bearish, price, k);
    var caps := Filter(CapTest(price), levels);
    var sorted := SortDesc(caps, NegatedLevelPrice);
    if k.None? || sorted == [] || !AllowsShort(structure.trend) then None
    else
      SortDescHeadIsMax(caps, NegatedLevelPrice);
      Some(Setup(blocks[k.value], sorted[0], structure))
  }

  /** Setups need an unmitigated block: once every block is mitigated there
      is no setup on either side, whatever the price, levels or trend. */
  lemma MitigatedBlocksGiveNoSetup(price: real, blocks: seq<OrderBlock>, levels: seq<LiquidityLevel>, structure: MarketStructure)
    requires forall k :: 0 <= k < |blocks| ==> blocks[k].mitigated
    ensures CheckLongSetup(price, blocks, levels, structure).None?
    ensures CheckShortSetup(price, blocks, levels, structure).None?
  {
    forall b | b in blocks ensures !InReach(b, Bullish, price) && !InReach(b, Bearish, price) {
      var k :| 0 <= k < |blocks| && blocks[k] == b;
    }
  }

  /** `calculateStopLoss`: below both the block's stop and 1% under the
      support for a long; above both the block's stop and 1% over the
      resistance for a short. */
  function StopLoss(s: Setup, d: Direction): (r: real)
    ensures d == Long ==> r <= s.block.stop && r <= s.level.price * 0.99
    ensures d == Short ==> r >= s.block.stop && r >= s.level.price * 1.01
    ensures r == s.block.stop || r == s.level.price * (if d == Long then 0.99 else 1.01)
  {
    if d == Long then Min(s.block.stop, s.level.price * 0.99) else Max(s.block.stop, s.level.price * 1.01)
  }

  /** A found setup always risks something: on positive level prices the
      stop of a long lies below the price and the stop of a short above it. */
  lemma SetupRiskPositive(price: real, blocks: seq<OrderBlock>, levels: seq<LiquidityLevel>, structure: MarketStructure)
    ensures CheckLongSetup(price, blocks, levels, structure).Some?
      && CheckLongSetup(price, blocks, levels, structure).value.level.price > 0.0
      ==> StopLoss(CheckLongSetup(price, blocks, levels, structure).value, Long) < price
    ensures CheckShortSetup(price, blocks, levels, structure).Some?
      && CheckShortSetup(price, blocks, levels, structure).value.level.price > 0.0
      ==> StopLoss(CheckShortSetup(price, blocks, levels, structure).value, Short) > price
  {
  }

  /** A key level the target search accepts: a resistance above the entry
      for a long, a support below it for a short. */
  predicate KeyTarget(d: Direction, entry: real, l: KeyLevel) {
    if d == Long then l.kind == Resistance && l.price > entry else l.kind == Support && l.price < entry
  }

  function KeyTargetTest(d: Direction, entry: real): (p: KeyLevel -> bool)
    ensures forall l :: p(l) == KeyTarget(d, entry, l)
  {
    l => KeyTarget(d, entry, l)
  }

  /** `Math.max(...points.map(p => p.price))`: `-Infinity` for no points. */
  function HighestPrice(ps: seq<SwingPoint>): (r: ExtReal)
    ensures r == NegInf <==> ps == []
    ensures r.Fin? || r == NegInf
    ensures r.Fin? ==> (exists p :: p in ps && p.price == r.value) && forall p :: p in ps ==> p.price <= r.value
  {
    if ps == [] then NegInf
    else
      var rest := HighestPrice(ps[1..]);
      assert forall p :: p in ps <==> p == ps[0] || p in ps[1..];
      if rest.Fin? then Fin(Max(ps[0].price, rest.value)) else Fin(ps[0].price)
  }

  /** `Math.min(...points.map(p => p.price))`: `Infinity` for no points. */
  function LowestPrice(ps: seq<SwingPoint>): (r: ExtReal)
    ensures r == PosInf <==> ps == []
    ensures r.Fin? || r == PosInf
    ensures r.Fin? ==> (exists p :: p in ps && p.price == r.value) && forall p :: p in ps ==> r.value <= p.price
  {
    if ps == [] then PosInf
    else
      var rest := LowestPrice(ps[1..]);
      assert forall p :: p in ps <==> p == ps[0] || p in ps[1..];
      if rest.Fin? then Fin(Min(ps[0].price, rest.value)) else Fin(ps[0].price)
  }

  /** Position `k` holds the first key level the target search accepts. */
  ghost predicate FirstKeyTarget(ls: seq<KeyLevel>, d: Direction, entry: real, k: int) {
    && 0 <= k < |ls| && KeyTarget(d, entry, ls[k])
    && forall j :: 0 <= j < k ==> !KeyTarget(d, entry, ls[j])
  }

  /** `keyLevels.find(...)?.price`: the price of the first key level, in
      list order (strongest first), that the target search accepts. */
  function KeyTargetPrice(s: Setup, d: Direction): (r: Option<real>)
    ensures r.None? <==> forall l :: l in s.structure.keyLevels ==> !KeyTarget(d, s.block.entry, l)
    ensures r.Some? ==> exists k :: FirstKeyTarget(s.structure.keyLevels, d, s.block.entry, k) && s.structure.keyLevels[k].price == r.value
  {
    var ls := s.structure.keyLevels;
    var k := FindIndex(KeyTargetTest(d, s.block.entry), ls);
    if k.Some? then
      assert FirstKeyTarget(ls, d, s.block.entry, k.value);
      Some(ls[k.value].price)
    else
      assert forall l :: l in ls ==> !KeyTarget(d, s.block.entry, l) by {
        forall l | l in ls ensures !KeyTarget(d, s.block.entry, l) {
          var j :| 0 <= j < |ls| && ls[j] == l;
        }
      }
      None
  }

  /** `identifyTargets` before rounding: the key level if one is found, the
      entry moved two ATRs towards profit, and the extreme swing on the
      profit side. */
  function RawTargets(s: Setup, d: Direction, atr: real): (r: seq<ExtReal>)
    ensures 2 <= |r| <= 3 && r[0].Fin? && r[|r| - 2].Fin?
    ensures |r| == 3 <==> KeyTargetPrice(s, d).Some?
  {
    var key := KeyTargetPrice(s, d);
    var front := if key.Some? then [Fin(key.value)] else [];
    if d == Long then front + [Fin(s.block.entry + 2.0 * atr), HighestPrice(s.structure.swingHighs)]
    else front + [Fin(s.block.entry - 2.0 * atr), LowestPrice(s.structure.swingLows)]
  }

  /** `identifyTargets`: the raw targets, each rounded to eight decimals. The
      first is always finite; the last is the profit-side extreme swing, or
      the infinity `Math.max`/`Math.min` give when there are no swings. */
  function Targets(s: Setup, d: Direction, atr: real): (r: seq<ExtReal>)
    ensures 2 <= |r| <= 3 && r[0].Fin?
    ensures |r| == 3 <==> exists l :: l in s.structure.keyLevels && KeyTarget(d, s.block.entry, l)
    ensures |r| == 3 ==> r[0] == Fin(ToFixed8(KeyTargetPrice(s, d).value))
    ensures r[|r| - 2] == Fin(ToFixed8(if d == Long then s.block.entry + 2.0 * atr else s.block.entry - 2.0 * atr))
    ensures r[|r| - 1] == ToFixed8Ext(if d == Long then HighestPrice(s.structure.swingHighs) else LowestPrice(s.structure.swingLows))
    ensures d == Long ==> (r[|r| - 1] == NegInf <==> s.structure.swingHighs == [])
    ensures d == Short ==> (r[|r| - 1] == PosInf <==> s.structure.swingLows == [])
  {
    var raw := RawTargets(s, d, atr);
    seq(|raw|, k requires 0 <= k < |raw| => ToFixed8Ext(raw[k]))
  }

  /** Whichever target comes first, it is never on the losing side of the
      rounded entry: at or above it for a long, at or below it for a
      short. */
  lemma FirstTargetBeyondEntry(s: Setup, d: Direction, atr: real)
    requires atr >= 0.0
    ensures d == Long ==> Targets(s, d, atr)[0].value >= ToFixed8(s.block.entry)
    ensures d == Short ==> Targets(s, d, atr)[0].value <= ToFixed8(s.block.entry)
  {
    var raw := RawTargets(s, d, atr);
    var key := KeyTargetPrice(s, d);
    assert Targets(s, d, atr)[0] == ToFixed8Ext(raw[0]);
    if d == Long {
      assert raw[0].value >= s.block.entry;
      ToFixed8Monotone(s.block.entry, raw[0].value);
    } else {
      assert raw[0].value <= s.block.entry;
      ToFixed8Monotone(raw[0].value, s.block.entry);
    }
  }

  /** The 20-point bonus for a block that agrees with the trend. */
  predicate Aligned(s: Setup) {
    (s.block.bias == Bullish && s.structure.trend == Some(Uptrend))
    || (s.block.bias == Bearish && s.structure.trend == Some(Downtrend))
  }

  /** `Math.min(10, level.strength * 5)`, where an infinite strength gives
      the full 10. */
  function LevelBonus(st: Strength): (r: real)
    ensures r <= 10.0
    ensures NonNegative(st) ==> r >= 0.0
  {
    match st
    case Finite(v) => Min(10.0, v * 5.0)
    case Infinite => 10.0
  }

  function ConfidenceScore(s: Setup): real {
    50.0 + (if Aligned(s) then 20.0 else 0.0) + Min(20.0, s.block.strength * 10.0) + LevelBonus(s.level.strength)
  }

  /** `calculateConfidence`: at most 100, and at least the 50 base whenever
      the strengths are non-negative. */
  function Confidence(s: Setup): (r: int)
    ensures r <= 100
    ensures s.block.strength >= 0.0 && NonNegative(s.level.strength) ==> 50 <= r
  {
    var c := ConfidenceScore(s);
    var n := Round(c);
    if n < 100 then n else 100
  }

  /** Agreeing with the trend is worth exactly 20 points, up to the cap:
      the same setup in a ranging market scores 20 fewer, or 100 stays 100. */
  lemma AlignmentWorthTwenty(s: Setup)
    requires Aligned(s)
    ensures Confidence(s) == (if Confidence(s.(structure := s.structure.(trend := Some(Ranging)))) + 20 < 100
      then Confidence(s.(structure := s.structure.(trend := Some(Ranging)))) + 20 else 100)
  {
    var t := s.(structure := s.structure.(trend := Some(Ranging)));
    assert ConfidenceScore(s) == ConfidenceScore(t) + 20 as real;
    RoundShift(ConfidenceScore(t), 20);
  }

  /** A stronger block never lowers the confidence. */
  lemma ConfidenceMonotone(s: Setup, strength: real)
    requires s.block.strength <= strength
    ensures Confidence(s) <= Confidence(s.(block := s.block.(strength := strength)))
  {
    var t := s.(block := s.block.(strength := strength));
    assert Min(20.0, s.block.strength * 10.0) <= Min(20.0, strength * 10.0);
    RoundMonotone(ConfidenceScore(s), ConfidenceScore(t));
  }

  /** `calculatePositionSize`: the quantity that loses 100 between entry and
      stop, rounded to eight decimals; `Infinity` when they coincide. */
  function PositionSize(entry: real, stop: real): (r: ExtReal)
    ensures r == PosInf <==> entry == stop
    ensures r.Fin? <==> entry != stop
    ensures r.Fin? ==> r.value >= 0.0
    ensures r.Fin? ==> Abs(r.value - 100.0 / Abs(entry - stop)) <= HalfUnit
  {
    ToFixed8Ext(Div(100.0, Abs(entry - stop)))
  }

  /** A size within `e` of `100 / d` risks 100 up to `d * e` over a stop
      distance `d`: with the size of `PositionSize`, the position loses 100
      at the stop, up to the eight-decimal rounding. */
  lemma SizeRisksHundred(r: real, d: real, e: real)
    requires d > 0.0 && Abs(r - 100.0 / d) <= e
    ensures Abs(r * d - 100.0) <= d * e
  {
    var q := 100.0 / d;
    assert q * d == 100.0;
    assert r * d - 100.0 == (r - q) * d;
    if r - q >= 0.0 {
      assert (r - q) * d <= e * d;
    } else {
      assert -(r - q) * d <= e * d;
    }
  }

  const MaxLeverage: int := 20
  const MinLeverage: int := 1

  /** `calculateOptimalLeverage`: the inverse of the risk as a percentage of
      the price, rounded and kept within 1..20. No risk divides by zero and
      takes the maximum; a negative risk takes the minimum. */
  function Leverage(risk: real, price: real): (r: int)
    requires price > 0.0
    ensures MinLeverage <= r <= MaxLeverage
    ensures risk == 0.0 ==> r == MaxLeverage
    ensures risk < 0.0 ==> r == MinLeverage
    ensures risk > 0.0 && 100.0 * risk * 20.0 <= price ==> r == MaxLeverage
    ensures risk > 0.0 && 100.0 * risk * 2.0 >= 3.0 * price ==> r == MinLeverage
  {
    if risk == 0.0 then MaxLeverage
    else
      var inverse := price / (100.0 * risk);
      InverseBounds(risk, price);
      Clamp(Round(inverse), MinLeverage, MaxLeverage)
  }

  lemma InverseBounds(risk: real, price: real)
    requires price > 0.0 && risk != 0.0
    ensures risk > 0.0 && 100.0 * risk * 20.0 <= price ==> price / (100.0 * risk) >= 20.0
    ensures risk > 0.0 && 100.0 * risk * 2.0 >= 3.0 * price ==> price / (100.0 * risk) <= 1.5
    ensures risk < 0.0 ==> price / (100.0 * risk) < 0.0
  {
    var inverse := price / (100.0 * risk);
    assert inverse * (100.0 * risk) == price;
  }

  /** More risk never buys more leverage. */
  lemma LeverageMonotone(r1: real, r2: real, price: real)
    requires price > 0.0 && 0.0 < r1 <= r2
    ensures Leverage(r2, price) <= Leverage(r1, price)
  {
    var i1 := price / (100.0 * r1);
    var i2 := price / (100.0 * r2);
    assert i2 <= i1 by {
      assert i1 * (100.0 * r1) == price;
      assert i2 * (100.0 * r2) == price;
      assert i2 * (100.0 * r1) <= i2 * (100.0 * r2);
    }
    RoundMonotone(i2, i1);
  }

  /** A stop 1% away allows 1x, a stop 0.1% away 10x. */
  lemma LeverageExamples()
    ensures Leverage(1.0, 100.0) == 1
    ensures Leverage(0.1, 100.0) == 10
  {
    assert 100.0 / (100.0 * 0.1) == 10.0;
  }

  /** `calculateHistoricalWinRate`: 50 with no closed trades; otherwise the
      historical rate moved 5 points per unit of reward-to-risk above 1 and
      kept within 5..95. Infinite ratios hit the bounds; a NaN ratio
      propagates through `Math.max`/`Math.min`. */
  function WinRate(h: TradeRecord, rr: ExtReal): (r: Option<real>)
    ensures h.total == 0 ==> r == Some(50.0)
    ensures r.None? <==> h.total > 0 && rr == NaN
    ensures r.Some? ==> 5.0 <= r.value <= 95.0
    ensures h.total > 0 && rr == PosInf ==> r == Some(95.0)
    ensures h.total > 0 && rr == NegInf ==> r == Some(5.0)
  {
    if h.total == 0 then Some(50.0)
    else
      var base := h.wins as real / h.total as real * 100.0;
      match rr
      case Fin(x) => Some(ClampReal(base + (x - 1.0) * 5.0, 5.0, 95.0))
      case PosInf => Some(95.0)
      case NegInf => Some(5.0)
      case NaN => None
  }

  /** A better reward-to-risk never lowers the estimated win rate, and a
      ratio of exactly 1 leaves the historical rate unadjusted. */
  lemma WinRateMonotone(h: TradeRecord, x: real, y: real)
    requires h.total > 0 && x <= y
    ensures WinRate(h, Fin(x)).value <= WinRate(h, Fin(y)).value
    ensures WinRate(h, Fin(1.0)).value == ClampReal(h.wins as real / h.total as real * 100.0, 5.0, 95.0)
  {
  }

  /** A generated trading signal. The reward-to-risk is kept as the number
      the win rate is computed from. */
  datatype Signal = Signal(
    direction: Direction,
    price: real,
    stopLoss: real,
    targets: seq<ExtReal>,
    confidence: int,
    volume: ExtReal,
    leverage: int,
    riskReward: ExtReal,
    winRate: Option<real>)

  /** The risk of a trade at `price` with stop `stop`: positive when the
      stop is on the losing side. */
  function Risk(d: Direction, price: real, stop: real): real {
    if d == Long then price - stop else stop - price
  }

  /** The reward of reaching `target` from `price`: positive when the target
      is on the winning side. */
  function Reward(d: Direction, price: real, target: real): real {
    if d == Long then target - price else price - target
  }

  /** The bounds every generated signal keeps: leverage 1..20, confidence
      at most 100, a win rate of 5..95 when there is one, and 50 when the
      side has no trade history. */
  predicate Sound(sig: Signal, h: TradeHistory) {
    && MinLeverage <= sig.leverage <= MaxLeverage && sig.confidence <= 100
    && (sig.winRate.Some? ==> 5.0 <= sig.winRate.value <= 95.0)
    && (RecordFor(h, sig.direction).total == 0 ==> sig.winRate == Some(50.0))
  }

  /** One branch of `generateSignals`: the signal built from a setup, with
      the reward-to-risk measured to the first target. */
  function SignalFor(s: Setup, d: Direction, price: real, atr: real, h: TradeHistory): (sig: Signal)
    requires price > 0.0
    ensures sig.direction == d && sig.price == price
    ensures MinLeverage <= sig.leverage <= MaxLeverage && sig.confidence <= 100
    ensures sig.winRate.Some? ==> 5.0 <= sig.winRate.value <= 95.0
    ensures RecordFor(h, d).total == 0 ==> sig.winRate == Some(50.0)
    ensures Sound(sig, h)
  {
    var stop := StopLoss(s, d);
    var targets := Targets(s, d, atr);
    var risk := Risk(d, price, stop);
    var rr := Div(Reward(d, price, targets[0].value), risk);
    Signal(d, price, stop, targets, Confidence(s), PositionSize(price, stop), Leverage(risk, price), rr, WinRate(RecordFor(h, d), rr))
  }

  /** The pieces of a signal are the generator's own calculations. */
  lemma SignalParts(s: Setup, d: Direction, price: real, atr: real, h: TradeHistory)
    requires price > 0.0
    ensures SignalFor(s, d, price, atr, h).stopLoss == StopLoss(s, d)
    ensures SignalFor(s, d, price, atr, h).targets == Targets(s, d, atr)
    ensures SignalFor(s, d, price, atr, h).riskReward
      == Div(Reward(d, price, Targets(s, d, atr)[0].value), Risk(d, price, StopLoss(s, d)))
  {
  }

  function LongSetupOf(smc: SmcState, data: seq<Candle>): Option<Setup>
    requires data != []
  {
    CheckLongSetup(data[|data| - 1].close, smc.orderBlocks, smc.liquidityLevels, smc.structure)
  }

  function ShortSetupOf(smc: SmcState, data: seq<Candle>): Option<Setup>
    requires data != []
  {
    CheckShortSetup(data[|data| - 1].close, smc.orderBlocks, smc.liquidityLevels, smc.structure)
  }

  /** The signals of both sides at `price`: the long one first if there
      is a long setup, then the short one if there is a short setup. */
  function SignalsFrom(long: Option<Setup>, short: Option<Setup>, price: real, data: seq<Candle>, h: TradeHistory): (r: seq<Signal>)
    requires price > 0.0
    requires long.Some? || short.Some? ==> |data| >= AtrPeriod
    ensures |r| == (if long.Some? then 1 else 0) + (if short.Some? then 1 else 0)
    ensures forall k :: 0 <= k < |r| ==>
      r[k].price == price && Sound(r[k], h) && (r[k].direction == Long <==> k == 0 && long.Some?)
    ensures long.Some? ==> r[0] == SignalFor(long.value, Long, price, Atr(data), h)
    ensures short.Some? ==> r[|r| - 1] == SignalFor(short.value, Short, price, Atr(data), h)
  {
    if long.Some? && short.Some? then
      [SignalFor(long.value, Long, price, Atr(data), h), SignalFor(short.value, Short, price, Atr(data), h)]
    else if long.Some? then [SignalFor(long.value, Long, price, Atr(data), h)]
    else if short.Some? then [SignalFor(short.value, Short, price, Atr(data), h)]
    else []
  }

  /** `generateSignals`: a long signal if there is a long setup, then a
      short one if there is a short setup, all at the last close. It throws
      (`None`) on an empty window, where there is no last candle, and when a
      setup needs targets on fewer than 14 candles, where the ATR read fails. */
  function GenerateSignals(smc: SmcState, data: seq<Candle>, h: TradeHistory): (r: Option<seq<Signal>>)
    requires Valid(data)
    ensures r.None? <==>
      data == [] || (|data| < AtrPeriod && (LongSetupOf(smc, data).Some? || ShortSetupOf(smc, data).Some?))
    ensures r.Some? ==> |r.value| == (if LongSetupOf(smc, data).Some? then 1 else 0) + (if ShortSetupOf(smc, data).Some? then 1 else 0)
    ensures r.Some? ==> forall k :: 0 <= k < |r.value| ==>
      r.value[k].price == data[|data| - 1].close && Sound(r.value[k], h)
      && (r.value[k].direction == Long <==> k == 0 && LongSetupOf(smc, data).Some?)
    ensures r.Some? && h == FreshHistory ==> forall k :: 0 <= k < |r.value| ==> r.value[k].winRate == Some(50.0)
    ensures r.Some? ==> forall k :: 0 <= k < |r.value| ==>
      (r.value[k].direction == Long ==> r.value[k].stopLoss < r.value[k].price)
      && (r.value[k].direction == Short ==> r.value[k].stopLoss > r.value[k].price)
  {
    if data == [] then None
    else
      var price := data[|data| - 1].close;
      assert WellFormed(data[|data| - 1]);
      var long := LongSetupOf(smc, data);
      var short := ShortSetupOf(smc, data);
      if (long.Some? || short.Some?) && |data| < AtrPeriod then None
      else
        var r := SignalsFrom(long, short, price, data, h);
        FreshSignals(r, h);
        SignalStopsOnLosingSide(long, short, price, data, h);
        Some(r)
  }

  /** A long signal built on a support below the price has its stop below
      the price, and a short one built on a level above the price has its
      stop above it. */
  lemma SignalStopsOnLosingSide(long: Option<Setup>, short: Option<Setup>, price: real, data: seq<Candle>, h: TradeHistory)
    requires price > 0.0
    requires long.Some? || short.Some? ==> |data| >= AtrPeriod
    requires long.Some? ==> long.value.level.price < price
    requires short.Some? ==> short.value.level.price > price
    ensures var r := SignalsFrom(long, short, price, data, h);
      forall k :: 0 <= k < |r| ==>
        (r[k].direction == Long ==> r[k].stopLoss < r[k].price)
        && (r[k].direction == Short ==> r[k].stopLoss > r[k].price)
  {
    var r := SignalsFrom(long, short, price, data, h);
    forall k | 0 <= k < |r|
      ensures r[k].direction == Long ==> r[k].stopLoss < r[k].price
      ensures r[k].direction == Short ==> r[k].stopLoss > r[k].price
    {
      if r[k].direction == Long {
        assert k == 0 && long.Some?;
        SignalParts(long.value, Long, price, Atr(data), h);
      } else {
        assert short.Some? && k == |r| - 1;
        SignalParts(short.value, Short, price, Atr(data), h);
      }
    }
  }

  /** A sound signal on a fresh history carries the flat 50 win rate. */
  lemma FreshSignals(r: seq<Signal>, h: TradeHistory)
    requires forall k :: 0 <= k < |r| ==> Sound(r[k], h)
    ensures h == FreshHistory ==> forall k :: 0 <= k < |r| ==> r[k].winRate == Some(50.0)
  {
  }

  /** The fields of a `SignalGenerator` the analysis reads and writes. */
  datatype Generator = Generator(smc: SmcState, ict: IctState, marketData: seq<Candle>, history: TradeHistory)

  const InitialGenerator: Generator := Generator(InitialSmc, InitialIct, [], FreshHistory)

  /** The generator after an analysis, and its signals; `None` when the
      analysis threw part-way and was caught. */
  datatype Analysis = Analysis(after: Generator, signals: Option<seq<Signal>>)

  /** The structure pass run on the window that produced the blocks flags
      every one of them: each block's own candles trade through it. */
  lemma StructurePassMitigatesOwnBlocks(s: SmcState, data: seq<Candle>)
    requires Valid(data) && s.orderBlocks == IdentifyOrderBlocks(data)
    requires DetectMarketStructure(s, data).Some?
    ensures forall k :: 0 <= k < |DetectMarketStructure(s, data).value.orderBlocks| ==> DetectMarketStructure(s, data).value.orderBlocks[k].mitigated
  {
    var after := DetectMarketStructure(s, data).value;
    DetectedBlocksTradedThrough(data);
    forall k | 0 <= k < |after.orderBlocks| ensures after.orderBlocks[k].mitigated {
      assert s.orderBlocks[k] in IdentifyOrderBlocks(data);
    }
  }

  /** The SMC state after the three SMC calls of `analyzeMarket`, and
      whether they got through without a throw. */
  datatype SmcOutcome = SmcOutcome(smc: SmcState, ok: bool)

  /** The SMC half of `analyzeMarket`: blocks, then levels, then structure.
      A throw keeps what the earlier calls wrote: fresh, unflagged blocks, and
      the fresh levels when the window is long enough for them. Getting
      through, it has flagged every block. */
  function SmcPass(s: SmcState, data: seq<Candle>): (r: SmcOutcome)
    requires Valid(data)
    ensures r.ok <==> |data| >= AtrPeriod && StructureBreaks(SwingHighs(data), SwingLows(data)).Some?
    ensures |r.smc.orderBlocks| == |IdentifyOrderBlocks(data)|
    ensures s.structure.mitigation <= r.smc.structure.mitigation
    ensures !r.ok ==> r.smc.orderBlocks == IdentifyOrderBlocks(data) && r.smc.structure == s.structure
    ensures |data| < AtrPeriod ==> r.smc.liquidityLevels == s.liquidityLevels
    ensures |data| >= AtrPeriod ==> r.smc.liquidityLevels == FindLiquidityLevels(data)
    ensures r.ok ==> forall k :: 0 <= k < |r.smc.orderBlocks| ==> r.smc.orderBlocks[k].mitigated
  {
    var s1 := WithOrderBlocks(s, data);
    if |data| < AtrPeriod then SmcOutcome(s1, false)
    else
      var s2 := WithLiquidityLevels(s1, data);
      var detected := DetectMarketStructure(s2, data);
      if detected.None? then SmcOutcome(s2, false)
      else
        StructurePassMitigatesOwnBlocks(s2, data);
        SmcOutcome(detected.value, true)
  }

  /** `analyzeMarket`: the SMC blocks, levels and structure, the ICT gaps and
      entries, then the signals, in that order; a throw is caught and keeps
      whatever the earlier steps wrote. It gets to the signals exactly when
      the window has 14 candles and the break loop does not throw, and by
      then every block is mitigated. The window and history never change and
      the mitigation log only grows. */
  function AnalyzeMarket(g: Generator): (r: Analysis)
    requires Valid(g.marketData)
    ensures r.after.marketData == g.marketData && r.after.history == g.history
    ensures |r.after.smc.orderBlocks| == |IdentifyOrderBlocks(g.marketData)|
    ensures g.smc.structure.mitigation <= r.after.smc.structure.mitigation
    ensures r.signals.Some? <==>
      |g.marketData| >= AtrPeriod && StructureBreaks(SwingHighs(g.marketData), SwingLows(g.marketData)).Some?
    ensures r.signals.None? ==> r.after.ict == g.ict
    ensures r.signals.Some? ==> r.after.ict.fairValueGaps == IdentifyFvg(g.marketData)
    ensures r.signals.Some? ==> forall k :: 0 <= k < |r.after.smc.orderBlocks| ==> r.after.smc.orderBlocks[k].mitigated
    ensures r.signals.Some? ==> r.signals == GenerateSignals(r.after.smc, g.marketData, g.history)
  {
    var data := g.marketData;
    var pass := SmcPass(g.smc, data);
    if !pass.ok then Analysis(g.(smc := pass.smc), None)
    else
      var entries := FindOptimalEntries(WithFvgs(g.ict, data), data);
      Analysis(Generator(pass.smc, entries.state, data, g.history), GenerateSignals(pass.smc, data, g.history))
  }

  /** What `analyzeMarket` leaves in the SMC state: the fresh levels once
      the window is long enough for them, and after a caught throw the fresh
      blocks and the old structure. */
  lemma AnalyzeMarketSmcState(g: Generator)
    requires Valid(g.marketData)
    ensures AnalyzeMarket(g).signals.None? ==>
      AnalyzeMarket(g).after.smc.orderBlocks == IdentifyOrderBlocks(g.marketData) && AnalyzeMarket(g).after.smc.structure == g.smc.structure
    ensures |g.marketData| < AtrPeriod ==> AnalyzeMarket(g).after.smc.liquidityLevels == g.smc.liquidityLevels
    ensures |g.marketData| >= AtrPeriod ==> AnalyzeMarket(g).after.smc.liquidityLevels == FindLiquidityLevels(g.marketData)
  {
    var pass := SmcPass(g.smc, g.marketData);
    assert AnalyzeMarket(g).after.smc == pass.smc;
  }

  /** A caught throw leaves the freshly found blocks, none of them flagged:
      a pass that throws after one that mitigated every block un-flags them
      all again. */
  lemma ThrowUnflagsBlocks(g: Generator)
    requires Valid(g.marketData)
    ensures AnalyzeMarket(g).signals.None? ==> forall b :: b in AnalyzeMarket(g).after.smc.orderBlocks ==> !b.mitigated
  {
    AnalyzeMarketSmcState(g);
    FreshBlocksUnflagged(g.marketData);
  }

  lemma FreshBlocksUnflagged(data: seq<Candle>)
    requires Valid(data)
    ensures forall b :: b in IdentifyOrderBlocks(data) ==> !b.mitigated
  {
    var blocks := IdentifyOrderBlocks(data);
    forall b | b in blocks ensures !b.mitigated {
      var k :| 0 <= k < |blocks| && blocks[k] == b;
    }
  }

  /** The analysis never emits a signal: whenever it gets as far as
      generating signals, every block has just been mitigated by the window
      it came from, and setups need an unmitigated block. */
  lemma AnalysisNeverSignals(g: Generator)
    requires Valid(g.marketData)
    ensures AnalyzeMarket(g).signals.Some? ==> AnalyzeMarket(g).signals.value == []
  {
    var r := AnalyzeMarket(g);
    if r.signals.Some? {
      var data := g.marketData;
      var smc := r.after.smc;
      MitigatedBlocksGiveNoSetup(data[|data| - 1].close, smc.orderBlocks, smc.liquidityLevels, smc.structure);
      assert LongSetupOf(smc, data).None? && ShortSetupOf(smc, data).None?;
    }
  }

  /** The window is the last 1000 candles. */
  const WindowSize: nat := 1000

  /** `marketData.push(candle)` then `slice(-1000)`. */
  function AppendClosed(window: seq<Candle>, c: Candle): (r: seq<Candle>)
    ensures |r| == if |window| < WindowSize then |window| + 1 else WindowSize
    ensures r[|r| - 1] == c
    ensures forall k :: 0 <= k < |r| - 1 ==> r[k] == window[|window| - (|r| - 1) + k]
  {
    var all := window + [c];
    if |all| <= WindowSize then all else all[|all| - WindowSize..]
  }

  /** Appending a later, well-formed candle keeps the window valid and in
      time order. */
  lemma AppendKeepsWindowSound(window: seq<Candle>, c: Candle)
    requires Valid(window) && Ascending(window) && WellFormed(c)
    requires window != [] ==> window[|window| - 1].time < c.time
    ensures Valid(AppendClosed(window, c)) && Ascending(AppendClosed(window, c))
  {
    var r := AppendClosed(window, c);
    var off := |window| - (|r| - 1);
    forall i, j | 0 <= i < j < |r| ensures r[i].time < r[j].time {
      if j == |r| - 1 {
        assert r[i] == window[off + i];
        if off + i < |window| - 1 {
          assert window[off + i].time < window[|window| - 1].time;
        }
      } else {
        assert r[i] == window[off + i] && r[j] == window[off + j];
      }
    }
    forall i | 0 <= i < |r| ensures WellFormed(r[i]) {
      if i < |r| - 1 {
        assert r[i] == window[off + i];
      }
    }
  }

  /** The websocket handler on a closed candle: append it to the window and
      run the analysis. */
  function OnClosedCandle(g: Generator, c: Candle): (r: Analysis)
    requires Valid(g.marketData) && WellFormed(c)
    ensures r.after.marketData == AppendClosed(g.marketData, c)
    ensures r.after.history == g.history
    ensures r.signals.Some? ==> r.signals.value == []
  {
    var g1 := g.(marketData := AppendClosed(g.marketData, c));
    assert Valid(g1.marketData) by {
      var w := g1.marketData;
      forall i | 0 <= i < |w| ensures WellFormed(w[i]) {
        if i < |w| - 1 {
          assert w[i] == g.marketData[|g.marketData| - (|w| - 1) + i];
        }
      }
    }
    AnalysisNeverSignals(g1);
    AnalyzeMarket(g1)
  }
}

=== FILE: smc_blocks.dfy ===
/** SMC order blocks: detection on five-candle windows, the strength ranking,
    and the mitigation pass that flags blocks price has traded back into. */
module SmcBlocks {
  import opened Numeric
  import opened Seqs
  import opened Candles

  datatype Bias = Bullish | Bearish

  datatype OrderBlock = OrderBlock(
    bias: Bias,
    entry: real,
    stop: real,
    time: int,
    strength: real,
    volume: real,
    mitigated: bool)

  /** `data.slice(i - 2, i + 3)`: the anchor `w[0]`, the trigger `w[1]` and
      the momentum candle `w[2]`, plus two more that only enter the mean
      volume. */
  function Window(data: seq<Candle>, i: int): (w: seq<Candle>)
    requires 2 <= i < |data| - 2
    ensures |w| == 5
    ensures forall k :: 0 <= k < 5 ==> w[k] == data[i - 2 + k]
  {
    data[i - 2..i + 3]
  }

  /** A bearish anchor, a bullish trigger, a close above the trigger's high,
      and an anchor volume above the window's mean volume. */
  predicate IsBullishOrderBlock(w: seq<Candle>)
    requires |w| >= 3
  {
    && w[0].close < w[0].open
    && w[1].close > w[1].open
    && w[2].close > w[1].high
    && w[0].volume > AverageVolume(w)
  }

  predicate IsBearishOrderBlock(w: seq<Candle>)
    requires |w| >= 3
  {
    && w[0].close > w[0].open
    && w[1].close < w[1].open
    && w[2].close < w[1].low
    && w[0].volume > AverageVolume(w)
  }

  /** `_calculateBlockStrength`: relative anchor volume times the relative
      move from the anchor close to the momentum close. */
  function BlockStrength(w: seq<Candle>): (r: real)
    requires |w| >= 3
    requires AverageVolume(w) != 0.0 && w[0].close != 0.0
    ensures w[0].volume >= 0.0 && AverageVolume(w) > 0.0 && w[0].close > 0.0 ==> r >= 0.0
  {
    (w[0].volume / AverageVolume(w)) * (Abs(w[2].close - w[0].close) / w[0].close)
  }

  /** In a window of well-formed candles, an anchor volume above the mean
      forces a positive mean, so the strength is defined and non-negative. */
  lemma HeavyAnchorHasPositiveMean(w: seq<Candle>)
    requires |w| >= 3 && Valid(w)
    requires w[0].volume > AverageVolume(w)
    ensures AverageVolume(w) > 0.0 && w[0].close > 0.0
  {
    assert forall i :: 0 <= i < |w| ==> w[i].volume >= 0.0 by {
      forall i | 0 <= i < |w| ensures w[i].volume >= 0.0 {
        assert WellFormed(w[i]);
      }
    }
    var n := |w| as real;
    var v := w[0].volume;
    assert AverageVolume(w) >= v / n;
    assert v / n > 0.0;
    assert WellFormed(w[0]);
  }

  function BullishBlock(w: seq<Candle>): (b: OrderBlock)
    requires |w| >= 3 && Valid(w) && IsBullishOrderBlock(w)
    ensures b.bias == Bullish && b.entry == w[0].low && b.stop == w[0].high && b.time == w[0].time
    ensures b.volume == w[0].volume && !b.mitigated && b.strength >= 0.0
  {
    HeavyAnchorHasPositiveMean(w);
    OrderBlock(Bullish, w[0].low, w[0].high, w[0].time, BlockStrength(w), w[0].volume, false)
  }

  function BearishBlock(w: seq<Candle>): (b: OrderBlock)
    requires |w| >= 3 && Valid(w) && IsBearishOrderBlock(w)
    ensures b.bias == Bearish && b.entry == w[0].high && b.stop == w[0].low && b.time == w[0].time
    ensures b.volume == w[0].volume && !b.mitigated && b.strength >= 0.0
  {
    HeavyAnchorHasPositiveMean(w);
    OrderBlock(Bearish, w[0].high, w[0].low, w[0].time, BlockStrength(w), w[0].volume, false)
  }

  /** What iteration `i` of `identifyOrderBlocks` pushes: the bullish block,
      then the bearish one, each if its pattern holds. The two patterns need
      opposite anchor bodies, so a window never yields both. */
  function BlocksAt(data: seq<Candle>, i: int): (r: seq<OrderBlock>)
    requires Valid(data)
    ensures |r| <= 1
  {
    if !(2 <= i < |data| - 2) then []
    else
      var w := Window(data, i);
      (if IsBullishOrderBlock(w) then [BullishBlock(w)] else [])
      + (if IsBearishOrderBlock(w) then [BearishBlock(w)] else [])
  }

  function BlockEmitter(data: seq<Candle>): (e: int -> seq<OrderBlock>)
    requires Valid(data)
    ensures forall i :: e(i) == BlocksAt(data, i)
  {
    i => BlocksAt(data, i)
  }

  /** Block `b` is the one the window at `i` yields. */
  ghost predicate DetectedAt(data: seq<Candle>, i: int, b: OrderBlock)
    requires Valid(data)
    requires 2 <= i < |data| - 2
  {
    var w := Window(data, i);
    || (IsBullishOrderBlock(w) && b == BullishBlock(w))
    || (IsBearishOrderBlock(w) && b == BearishBlock(w))
  }

  /** The blocks in detection (index) order, before sorting. */
  function DetectedBlocks(data: seq<Candle>): (r: seq<OrderBlock>)
    requires Valid(data)
    ensures forall b :: b in r <==> exists i :: 2 <= i < |data| - 2 && DetectedAt(data, i, b)
  {
    var r := Scan(2, |data| - 2, BlockEmitter(data));
    DetectedMembers(data, r);
    r
  }

  lemma DetectedMembers(data: seq<Candle>, r: seq<OrderBlock>)
    requires Valid(data)
    requires r == Scan(2, |data| - 2, BlockEmitter(data))
    ensures forall b :: b in r <==> exists i :: 2 <= i < |data| - 2 && DetectedAt(data, i, b)
  {
    var e := BlockEmitter(data);
    forall b | b in r ensures exists i :: 2 <= i < |data| - 2 && DetectedAt(data, i, b) {
      var i :| 2 <= i < |data| - 2 && b in e(i);
      BlocksAtMembers(data, i, b);
    }
    forall b | exists i :: 2 <= i < |data| - 2 && DetectedAt(data, i, b) ensures b in r {
      var i :| 2 <= i < |data| - 2 && DetectedAt(data, i, b);
      BlocksAtMembers(data, i, b);
      assert b in e(i);
    }
  }

  lemma BlocksAtMembers(data: seq<Candle>, i: int, b: OrderBlock)
    requires Valid(data)
    requires 2 <= i < |data| - 2
    ensures b in BlocksAt(data, i) <==> DetectedAt(data, i, b)
  {
  }

  function StrengthOf(b: OrderBlock): real {
    b.strength
  }

  /** `identifyOrderBlocks`: every detected block, fresh and unmitigated,
      ranked by strength from strongest to weakest (a stable sort, so equal
      strengths keep detection order). */
  function IdentifyOrderBlocks(data: seq<Candle>): (r: seq<OrderBlock>)
    requires Valid(data)
    ensures multiset(r) == multiset(DetectedBlocks(data))
    ensures NonIncreasing(r, StrengthOf)
    ensures forall b :: b in r <==> exists i :: 2 <= i < |data| - 2 && DetectedAt(data, i, b)
    ensures forall k :: 0 <= k < |r| ==> !r[k].mitigated && r[k].strength >= 0.0
  {
    var d := DetectedBlocks(data);
    var r := SortDesc(d, StrengthOf);
    SameElements(r, d);
    DetectedFresh(data);
    r
  }

  /** Detection yields unmitigated blocks of non-negative strength. */
  lemma DetectedFresh(data: seq<Candle>)
    requires Valid(data)
    ensures forall b :: b in DetectedBlocks(data) ==> !b.mitigated && b.strength >= 0.0
  {
    forall b | b in DetectedBlocks(data) ensures !b.mitigated && b.strength >= 0.0 {
      var i :| 2 <= i < |data| - 2 && DetectedAt(data, i, b);
    }
  }

  datatype MitigationEvent = MitigationEvent(bias: Bias, price: real, time: int)

  /** The price whose retest mitigates the block: the entry of a bullish
      block, but the `stop` of a bearish one. */
  function MitigationPrice(b: OrderBlock): real {
    if b.bias == Bullish then b.entry else b.stop
  }

  /** Candle `c` trades back to the block: a low at or below the mitigation
      price of a bullish block, a high at or above that of a bearish one. */
  predicate Reaches(b: OrderBlock, c: Candle) {
    if b.bias == Bullish then c.low <= MitigationPrice(b) else c.high >= MitigationPrice(b)
  }

  /** `data.some(...)`: some candle of the window, earlier or later than the
      block alike, reaches it. */
  predicate TradedThrough(b: OrderBlock, data: seq<Candle>) {
    exists j :: 0 <= j < |data| && Reaches(b, data[j])
  }

  /** The block is flagged on this pass: traded through and not yet flagged. */
  predicate Flips(b: OrderBlock, data: seq<Candle>) {
    TradedThrough(b, data) && !b.mitigated
  }

  function FlipTest(data: seq<Candle>): (p: OrderBlock -> bool)
    ensures forall b :: p(b) == Flips(b, data)
  {
    b => Flips(b, data)
  }

  function EventOf(b: OrderBlock): MitigationEvent {
    MitigationEvent(b.bias, MitigationPrice(b), b.time)
  }

  datatype MitigationResult = MitigationResult(blocks: seq<OrderBlock>, events: seq<MitigationEvent>)

  /** The block after the pass: flagged when some candle reaches it. */
  function Mark(b: OrderBlock, data: seq<Candle>): OrderBlock {
    if Flips(b, data) then b.(mitigated := true) else b
  }

  /** The events the `forEach` pushes, one per block it flips, in list
      order: exactly the flipped blocks, each reported at its mitigation
      price. */
  function MitigationEvents(blocks: seq<OrderBlock>, data: seq<Candle>): (r: seq<MitigationEvent>)
    ensures r == Map(EventOf, Filter(FlipTest(data), blocks))
  {
    if blocks == [] then []
    else
      var b := blocks[0];
      FilterCons(FlipTest(data), blocks);
      if Flips(b, data) then
        MapCons(EventOf, b, Filter(FlipTest(data), blocks[1..]));
        [EventOf(b)] + MitigationEvents(blocks[1..], data)
      else
        MitigationEvents(blocks[1..], data)
  }

  /** `_checkMitigation`: flags every block some candle reaches and reports
      one event per block it flips, in list order. Nothing else about a block
      changes, and a flag already set stays set. */
  function CheckMitigation(blocks: seq<OrderBlock>, data: seq<Candle>): (r: MitigationResult)
    ensures |r.blocks| == |blocks|
    ensures forall k :: 0 <= k < |blocks| ==>
      r.blocks[k] == blocks[k].(mitigated := blocks[k].mitigated || TradedThrough(blocks[k], data))
    ensures r.events == Map(EventOf, Filter(FlipTest(data), blocks))
  {
    var marked := seq(|blocks|, k requires 0 <= k < |blocks| => Mark(blocks[k], data));
    MitigationResult(marked, MitigationEvents(blocks, data))
  }

  /** Every block `identifyOrderBlocks` finds in a window is reached by its
      own anchor candle, which lies in that window: a bullish block's entry is
      the anchor's low, and a bearish block's mitigation price (its stop) is
      the anchor's low, which the anchor's high is at or above. */
  lemma DetectedBlocksTradedThrough(data: seq<Candle>)
    requires Valid(data)
    ensures forall b :: b in IdentifyOrderBlocks(data) ==> TradedThrough(b, data)
  {
    forall b | b in IdentifyOrderBlocks(data) ensures TradedThrough(b, data) {
      var i :| 2 <= i < |data| - 2 && DetectedAt(data, i, b);
      assert WellFormed(data[i - 2]);
      assert Reaches(b, data[i - 2]);
    }
  }

  /** Hence running the mitigation pass on the window the blocks were found
      in flags every one of them. */
  lemma OwnWindowMitigatesAll(data: seq<Candle>)
    requires Valid(data)
    ensures forall b :: b in CheckMitigation(IdentifyOrderBlocks(data), data).blocks ==> b.mitigated
  {
    var blocks := IdentifyOrderBlocks(data);
    var r := CheckMitigation(blocks, data);
    DetectedBlocksTradedThrough(data);
    forall b | b in r.blocks ensures b.mitigated {
      var k :| 0 <= k < |r.blocks| && r.blocks[k] == b;
      assert blocks[k] in blocks;
    }
  }

  /** A second pass over the same candles flips nothing: every block the
      first pass could reach is already flagged, so the blocks come back
      unchanged and no event is reported twice. */
  lemma MitigationIdempotent(blocks: seq<OrderBlock>, data: seq<Candle>)
    ensures CheckMitigation(CheckMitigation(blocks, data).blocks, data).blocks == CheckMitigation(blocks, data).blocks
    ensures CheckMitigation(CheckMitigation(blocks, data).blocks, data).events == []
  {
    var once := CheckMitigation(blocks, data).blocks;
    var twice := CheckMitigation(once, data);
    assert forall k :: 0 <= k < |once| ==> !Flips(once[k], data);
    assert twice.blocks == once;
    FilterNone(FlipTest(data), once);
  }
}

=== FILE: smc_liquidity.dfy ===
/** SMC liquidity levels: clusters of equal highs (resistance) and equal lows
    (support), and stop-hunt spikes that reverse on the next candle. */
module SmcLiquidity {
  import opened Numeric
  import opened Seqs
  import opened Candles

  datatype LevelKind = Resistance | Support | StopHuntHigh | StopHuntLow

  /** A level's strength: a finite number, or JavaScript's `Infinity` when a
      stop-hunt reversal is divided by an ATR of zero. */
  datatype Strength = Finite(value: real) | Infinite

  predicate NonNegative(s: Strength) {
    s.Finite? ==> s.value >= 0.0
  }

  datatype LiquidityLevel = LiquidityLevel(kind: LevelKind, price: real, strength: Strength, time: int, swept: bool)

  /** Buckets are 0.0001 wide: `Math.round(p / 0.0001)` is the bucket key and
      `key * 0.0001` the bucket price. */
  const TicksPerUnit: real := 10000.0

  function TickKey(p: real): int {
    Round(p * TicksPerUnit)
  }

  function KeyPrice(key: int): real {
    key as real / TicksPerUnit
  }

  /** One candle's contribution to the bucket map: its rounded price and its time. */
  datatype Tick = Tick(key: int, time: int)

  /** An entry of the bucket map: how many candles fell in it and the time of
      the first one. */
  datatype Bucket = Bucket(key: int, count: nat, time: int)

  function Keys(ticks: seq<Tick>): (r: seq<int>)
    ensures |r| == |ticks|
    ensures forall j :: 0 <= j < |ticks| ==> r[j] == ticks[j].key
  {
    seq(|ticks|, j requires 0 <= j < |ticks| => ticks[j].key)
  }

  ghost predicate DistinctKeys(bs: seq<Bucket>) {
    forall a, b :: 0 <= a < b < |bs| ==> bs[a].key != bs[b].key
  }

  predicate HasKey(bs: seq<Bucket>, key: int) {
    exists k :: 0 <= k < |bs| && bs[k].key == key
  }

  /** The bucket was opened by the first tick with its key. */
  ghost predicate OpenedByFirst(ticks: seq<Tick>, b: Bucket) {
    exists j :: 0 <= j < |ticks| && ticks[j] == Tick(b.key, b.time)
      && forall i :: 0 <= i < j ==> ticks[i].key != b.key
  }

  /** One step of the `forEach`: count the tick in its bucket, or open a new
      bucket with count 1 and the tick's time. */
  function AddTick(bs: seq<Bucket>, t: Tick): (r: seq<Bucket>)
    requires DistinctKeys(bs)
    ensures DistinctKeys(r)
    ensures HasKey(bs, t.key) ==> |r| == |bs| && forall k :: 0 <= k < |bs| ==>
      r[k] == if bs[k].key == t.key then bs[k].(count := bs[k].count + 1) else bs[k]
    ensures !HasKey(bs, t.key) ==> r == bs + [Bucket(t.key, 1, t.time)]
  {
    if bs == [] then [Bucket(t.key, 1, t.time)]
    else if bs[0].key == t.key then [bs[0].(count := bs[0].count + 1)] + bs[1..]
    else
      var rest := AddTick(bs[1..], t);
      assert HasKey(bs, t.key) ==> HasKey(bs[1..], t.key) by {
        if HasKey(bs, t.key) {
          var k :| 0 <= k < |bs| && bs[k].key == t.key;
          assert bs[1..][k - 1].key == t.key;
        }
      }
      assert HasKey(bs[1..], t.key) ==> HasKey(bs, t.key) by {
        if HasKey(bs[1..], t.key) {
          var k :| 0 <= k < |bs[1..]| && bs[1..][k].key == t.key;
          assert bs[k + 1].key == t.key;
        }
      }
      [bs[0]] + rest
  }

  /** The bucket map after the `forEach` over all ticks: one bucket per
      distinct key, counting exactly the ticks with that key, stamped with
      the time of the first of them, and no tick left out. */
  function Group(ticks: seq<Tick>): (r: seq<Bucket>)
    ensures DistinctKeys(r)
    ensures forall k :: 0 <= k < |r| ==> r[k].count == multiset(Keys(ticks))[r[k].key]
    ensures forall k :: 0 <= k < |r| ==> OpenedByFirst(ticks, r[k])
    ensures forall j :: 0 <= j < |ticks| ==> HasKey(r, ticks[j].key)
  {
    if ticks == [] then []
    else
      var p := ticks[..|ticks| - 1];
      var t := ticks[|ticks| - 1];
      assert ticks == p + [t];
      var g := Group(p);
      KeysSnoc(p, t);
      assert multiset(Keys(ticks)) == multiset(Keys(p)) + multiset{t.key};
      var r := AddTick(g, t);
      if HasKey(g, t.key) then
        GroupHit(p, t, g, ticks, r);
        r
      else
        GroupMiss(p, t, g, ticks, r);
        r
  }

  lemma KeysSnoc(p: seq<Tick>, t: Tick)
    ensures multiset(Keys(p + [t])) == multiset(Keys(p)) + multiset{t.key}
  {
    assert Keys(p + [t]) == Keys(p) + [t.key];
  }

  /** A bucket opened by the first tick of its key in `p` still is after
      more ticks arrive. */
  lemma OpenedExtends(p: seq<Tick>, t: Tick, b: Bucket)
    requires OpenedByFirst(p, b)
    ensures OpenedByFirst(p + [t], b)
  {
    var j :| 0 <= j < |p| && p[j] == Tick(b.key, b.time) && forall i :: 0 <= i < j ==> p[i].key != b.key;
    assert (p + [t])[j] == p[j];
    assert forall i :: 0 <= i < j ==> (p + [t])[i] == p[i];
  }

  /** A key that no bucket of a complete grouping holds occurs in no tick. */
  lemma AbsentKey(p: seq<Tick>, g: seq<Bucket>, key: int)
    requires forall j :: 0 <= j < |p| ==> HasKey(g, p[j].key)
    requires !HasKey(g, key)
    ensures forall i :: 0 <= i < |p| ==> p[i].key != key
    ensures key !in multiset(Keys(p))
  {
    forall i | 0 <= i < |p| ensures p[i].key != key {
      assert HasKey(g, p[i].key);
    }
    assert forall i :: 0 <= i < |p| ==> Keys(p)[i] != key;
    assert key !in Keys(p);
  }

  /** Adding a tick whose key already has a bucket: that bucket counts one
      more, the others are unchanged. */
  lemma GroupHit(p: seq<Tick>, t: Tick, g: seq<Bucket>, q: seq<Tick>, r: seq<Bucket>)
    requires DistinctKeys(g) && HasKey(g, t.key)
    requires forall k :: 0 <= k < |g| ==> g[k].count == multiset(Keys(p))[g[k].key]
    requires forall k :: 0 <= k < |g| ==> OpenedByFirst(p, g[k])
    requires forall j :: 0 <= j < |p| ==> HasKey(g, p[j].key)
    requires q == p + [t] && multiset(Keys(q)) == multiset(Keys(p)) + multiset{t.key}
    requires r == AddTick(g, t)
    ensures forall k :: 0 <= k < |r| ==> r[k].count == multiset(Keys(q))[r[k].key]
    ensures forall k :: 0 <= k < |r| ==> OpenedByFirst(q, r[k])
    ensures forall j :: 0 <= j < |q| ==> HasKey(r, q[j].key)
  {
    assert |r| == |g|;
    forall k | 0 <= k < |r|
      ensures r[k].count == multiset(Keys(q))[r[k].key]
      ensures OpenedByFirst(q, r[k])
    {
      HitBucket(g, t, r, k);
      OpenedExtends(p, t, g[k]);
      assert multiset(Keys(q))[g[k].key] == multiset(Keys(p))[g[k].key] + (if g[k].key == t.key then 1 else 0);
    }
    forall j | 0 <= j < |q| ensures HasKey(r, q[j].key) {
      var k :| 0 <= k < |g| && g[k].key == q[j].key;
      HitBucket(g, t, r, k);
    }
  }

  /** One bucket after a tick with a known key: same key and time, one more
      in the count when the key is the tick's. */
  lemma HitBucket(g: seq<Bucket>, t: Tick, r: seq<Bucket>, k: int)
    requires DistinctKeys(g) && HasKey(g, t.key)
    requires r == AddTick(g, t)
    requires 0 <= k < |g|
    ensures k < |r| && r[k] == Bucket(g[k].key, g[k].count + (if g[k].key == t.key then 1 else 0), g[k].time)
  { }

  /** Adding a tick whose key is new: it opens a bucket at the end. */
  lemma GroupMiss(p: seq<Tick>, t: Tick, g: seq<Bucket>, q: seq<Tick>, r: seq<Bucket>)
    requires DistinctKeys(g) && !HasKey(g, t.key)
    requires forall k :: 0 <= k < |g| ==> g[k].count == multiset(Keys(p))[g[k].key]
    requires forall k :: 0 <= k < |g| ==> OpenedByFirst(p, g[k])
    requires forall j :: 0 <= j < |p| ==> HasKey(g, p[j].key)
    requires q == p + [t] && multiset(Keys(q)) == multiset(Keys(p)) + multiset{t.key}
    requires r == AddTick(g, t)
    ensures forall k :: 0 <= k < |r| ==> r[k].count == multiset(Keys(q))[r[k].key]
    ensures forall k :: 0 <= k < |r| ==> OpenedByFirst(q, r[k])
    ensures forall j :: 0 <= j < |q| ==> HasKey(r, q[j].key)
  {
    AbsentKey(p, g, t.key);
    assert r == g + [Bucket(t.key, 1, t.time)];
    forall k | 0 <= k < |g| ensures OpenedByFirst(q, r[k]) && r[k].count == multiset(Keys(q))[r[k].key] {
      OpenedExtends(p, t, g[k]);
      assert r[k] == g[k];
      assert g[k].key != t.key;
      assert multiset(Keys(q))[g[k].key] == multiset(Keys(p))[g[k].key];
    }
    assert r[|g|].count == multiset(Keys(q))[t.key] by {
      assert multiset(Keys(p))[t.key] == 0;
    }
    assert OpenedByFirst(q, r[|g|]) by {
      assert q[|p|] == Tick(t.key, t.time);
      assert forall i :: 0 <= i < |p| ==> q[i] == p[i];
    }
    forall j | 0 <= j < |q| ensures HasKey(r, q[j].key) {
      if j < |p| {
        assert q[j] == p[j];
        var k :| 0 <= k < |g| && g[k].key == p[j].key;
        assert r[k] == g[k];
      } else {
        assert r[|g|].key == t.key;
      }
    }
  }

  /** A bucket is a liquidity cluster when three or more candles fell in it. */
  predicate IsCluster(b: Bucket) {
    b.count >= 3
  }

  /** The bucket counts exactly the ticks of its key and was opened by the
      first of them. */
  ghost predicate Faithful(ticks: seq<Tick>, b: Bucket) {
    b.count == multiset(Keys(ticks))[b.key] && OpenedByFirst(ticks, b)
  }

  /** The buckets holding three or more ticks, each counting exactly the
      ticks of its key and stamped with the first one's time, each key once,
      in the order the keys first appeared; a key that three ticks share is
      never missed. */
  function Clusters(ticks: seq<Tick>): (r: seq<Bucket>)
    ensures r == Filter(IsCluster, Group(ticks))
    ensures DistinctKeys(r)
    ensures forall k :: 0 <= k < |r| ==> IsCluster(r[k]) && Faithful(ticks, r[k])
    ensures forall j :: 0 <= j < |ticks| && multiset(Keys(ticks))[ticks[j].key] >= 3 ==>
      HasKey(r, ticks[j].key)
  {
    var g := Group(ticks);
    assert forall k :: 0 <= k < |g| ==> Faithful(ticks, g[k]);
    KeepClusters(ticks, g)
  }

  /** The clusters among `bs`, in bucket order: each bucket that passes is
      kept once, so distinct keys stay distinct. */
  function KeepClusters(ticks: seq<Tick>, bs: seq<Bucket>): (r: seq<Bucket>)
    requires forall k :: 0 <= k < |bs| ==> Faithful(ticks, bs[k])
    ensures r == Filter(IsCluster, bs)
    ensures DistinctKeys(bs) ==> DistinctKeys(r)
    ensures forall k :: 0 <= k < |r| ==> IsCluster(r[k]) && Faithful(ticks, r[k])
    ensures forall m :: 0 <= m < |bs| && IsCluster(bs[m]) ==> HasKey(r, bs[m].key)
  {
    if bs == [] then []
    else
      var rest := KeepClusters(ticks, bs[1..]);
      FilterCons(IsCluster, bs);
      KeptKeysDistinct(bs, rest);
      KeptKeysFound(bs, rest);
      if IsCluster(bs[0]) then [bs[0]] + rest else rest
  }

  /** Putting a bucket in front of buckets drawn from the ones after it in a
      list of distinct keys keeps the keys distinct. */
  lemma KeptKeysDistinct(bs: seq<Bucket>, rest: seq<Bucket>)
    requires bs != []
    requires DistinctKeys(bs[1..]) ==> DistinctKeys(rest)
    requires forall x :: x in rest ==> x in bs[1..]
    ensures DistinctKeys(bs) ==> DistinctKeys(rest) && DistinctKeys([bs[0]] + rest)
  {
    if DistinctKeys(bs) {
      assert DistinctKeys(bs[1..]) by {
        forall a, b | 0 <= a < b < |bs[1..]| ensures bs[1..][a].key != bs[1..][b].key {
          assert bs[1..][a] == bs[a + 1] && bs[1..][b] == bs[b + 1];
        }
      }
      forall k | 0 <= k < |rest| ensures rest[k].key != bs[0].key {
        assert rest[k] in rest;
        var m :| 0 <= m < |bs[1..]| && bs[1..][m] == rest[k];
        assert bs[m + 1] == rest[k];
      }
      var t := [bs[0]] + rest;
      forall a, b | 0 <= a < b < |t| ensures t[a].key != t[b].key {
        if a > 0 {
          assert t[a] == rest[a - 1] && t[b] == rest[b - 1];
        } else {
          assert t[b] == rest[b - 1];
        }
      }
    }
  }

  /** The clusters kept from the tail still hold every cluster key of the
      tail once the head is put back in front. */
  lemma KeptKeysFound(bs: seq<Bucket>, rest: seq<Bucket>)
    requires bs != []
    requires forall m :: 0 <= m < |bs[1..]| && IsCluster(bs[1..][m]) ==> HasKey(rest, bs[1..][m].key)
    ensures forall m :: 1 <= m < |bs| && IsCluster(bs[m]) ==> HasKey(rest, bs[m].key)
    ensures IsCluster(bs[0]) ==> forall m :: 0 <= m < |bs| && IsCluster(bs[m]) ==> HasKey([bs[0]] + rest, bs[m].key)
  {
    forall m | 1 <= m < |bs| && IsCluster(bs[m]) ensures HasKey(rest, bs[m].key) {
      assert bs[1..][m - 1] == bs[m];
    }
    if IsCluster(bs[0]) {
      var t := [bs[0]] + rest;
      forall m | 0 <= m < |bs| && IsCluster(bs[m]) ensures HasKey(t, bs[m].key) {
        if m == 0 {
          assert t[0] == bs[0];
        } else {
          var k :| 0 <= k < |rest| && rest[k].key == bs[m].key;
          assert t[k + 1] == rest[k];
        }
      }
    }
  }

  function HighTick(c: Candle): Tick {
    Tick(TickKey(c.high), c.time)
  }

  function LowTick(c: Candle): Tick {
    Tick(TickKey(c.low), c.time)
  }

  function HighTicks(data: seq<Candle>): (r: seq<Tick>)
    ensures |r| == |data|
    ensures forall j :: 0 <= j < |data| ==> r[j] == HighTick(data[j])
  {
    seq(|data|, j requires 0 <= j < |data| => HighTick(data[j]))
  }

  function LowTicks(data: seq<Candle>): (r: seq<Tick>)
    ensures |r| == |data|
    ensures forall j :: 0 <= j < |data| ==> r[j] == LowTick(data[j])
  {
    seq(|data|, j requires 0 <= j < |data| => LowTick(data[j]))
  }

  /** `_findEqualHighs`: the clusters of candle highs rounded to 0.0001. */
  function EqualHighs(data: seq<Candle>): (r: seq<Bucket>)
    ensures forall k :: 0 <= k < |r| ==> r[k].count >= 3 && r[k].count == multiset(Keys(HighTicks(data)))[r[k].key]
    ensures forall k :: 0 <= k < |r| ==> OpenedByFirst(HighTicks(data), r[k])
    ensures DistinctKeys(r)
    ensures forall j :: 0 <= j < |data| && multiset(Keys(HighTicks(data)))[TickKey(data[j].high)] >= 3 ==>
      HasKey(r, TickKey(data[j].high))
  {
    assert forall j :: 0 <= j < |data| ==> HighTicks(data)[j].key == TickKey(data[j].high);
    Clusters(HighTicks(data))
  }

  /** `_findEqualLows`: the clusters of candle lows rounded to 0.0001. */
  function EqualLows(data: seq<Candle>): (r: seq<Bucket>)
    ensures forall k :: 0 <= k < |r| ==> r[k].count >= 3 && r[k].count == multiset(Keys(LowTicks(data)))[r[k].key]
    ensures forall k :: 0 <= k < |r| ==> OpenedByFirst(LowTicks(data), r[k])
    ensures DistinctKeys(r)
    ensures forall j :: 0 <= j < |data| && multiset(Keys(LowTicks(data)))[TickKey(data[j].low)] >= 3 ==>
      HasKey(r, TickKey(data[j].low))
  {
    assert forall j :: 0 <= j < |data| ==> LowTicks(data)[j].key == TickKey(data[j].low);
    Clusters(LowTicks(data))
  }

  function ResistanceLevel(b: Bucket): LiquidityLevel {
    LiquidityLevel(Resistance, KeyPrice(b.key), Finite(b.count as real), b.time, false)
  }

  function SupportLevel(b: Bucket): LiquidityLevel {
    LiquidityLevel(Support, KeyPrice(b.key), Finite(b.count as real), b.time, false)
  }

  /** `Math.abs(x) / atr` as JavaScript computes it: a positive amount over
      a zero ATR is `Infinity`. */
  function Ratio(x: real, atr: real): (r: Strength)
    requires x >= 0.0 && atr >= 0.0
    ensures NonNegative(r)
  {
    if atr == 0.0 then Infinite else Finite(x / atr)
  }

  /** A spike more than one ATR above the previous high whose next candle
      closes back below the spike's low. */
  predicate IsStopHuntHigh(data: seq<Candle>, i: int, atr: real)
    requires 1 <= i < |data| - 1
  {
    data[i].high > data[i - 1].high + atr && data[i + 1].close < data[i].low
  }

  predicate IsStopHuntLow(data: seq<Candle>, i: int, atr: real)
    requires 1 <= i < |data| - 1
  {
    data[i].low < data[i - 1].low - atr && data[i + 1].close > data[i].high
  }

  function StopHuntHighLevel(data: seq<Candle>, i: int, atr: real): (l: LiquidityLevel)
    requires 1 <= i < |data| - 1 && atr >= 0.0
    ensures l.kind == StopHuntHigh && l.price == data[i].high && NonNegative(l.strength)
  {
    LiquidityLevel(StopHuntHigh, data[i].high, Ratio(Abs(data[i + 1].close - data[i].high), atr), data[i].time, false)
  }

  function StopHuntLowLevel(data: seq<Candle>, i: int, atr: real): (l: LiquidityLevel)
    requires 1 <= i < |data| - 1 && atr >= 0.0
    ensures l.kind == StopHuntLow && l.price == data[i].low && NonNegative(l.strength)
  {
    LiquidityLevel(StopHuntLow, data[i].low, Ratio(Abs(data[i + 1].close - data[i].low), atr), data[i].time, false)
  }

  /** What iteration `i` of `_findStopHuntLevels` pushes. On well-formed
      candles a candle cannot be both kinds of spike: the next close would
      have to sit below its low and above its high. */
  function HuntsAt(data: seq<Candle>, i: int, atr: real): (r: seq<LiquidityLevel>)
    requires atr >= 0.0
    ensures Valid(data) ==> |r| <= 1
  {
    if !(1 <= i < |data| - 1) then []
    else
      assert Valid(data) ==> WellFormed(data[i]);
      (if IsStopHuntHigh(data, i, atr) then [StopHuntHighLevel(data, i, atr)] else [])
      + (if IsStopHuntLow(data, i, atr) then [StopHuntLowLevel(data, i, atr)] else [])
  }

  function HuntEmitter(data: seq<Candle>, atr: real): (e: int -> seq<LiquidityLevel>)
    requires atr >= 0.0
    ensures forall i :: e(i) == HuntsAt(data, i, atr)
  {
    i => HuntsAt(data, i, atr)
  }

  ghost predicate HuntAt(data: seq<Candle>, i: int, atr: real, l: LiquidityLevel)
    requires 1 <= i < |data| - 1 && atr >= 0.0
  {
    || (IsStopHuntHigh(data, i, atr) && l == StopHuntHighLevel(data, i, atr))
    || (IsStopHuntLow(data, i, atr) && l == StopHuntLowLevel(data, i, atr))
  }

  /** `_findStopHuntLevels`: exactly the spike levels of candles 1 .. n-2
      (the first and last candle lack a neighbour), each with a
      non-negative strength. The ATR read needs 14 candles. */
  function StopHunts(data: seq<Candle>): (r: seq<LiquidityLevel>)
    requires |data| >= AtrPeriod
    ensures forall l :: l in r <==> exists i :: 1 <= i < |data| - 1 && HuntAt(data, i, Atr(data), l)
    ensures forall l :: l in r ==> NonNegative(l.strength) && !l.swept
    ensures Valid(data) && Ascending(data) ==> StrictlyAscending(r, LevelTime)
  {
    var r := Scan(1, |data| - 1, HuntEmitter(data, Atr(data)));
    HuntMembers(data, Atr(data), r);
    HuntScanAscending(data, Atr(data), r);
    r
  }

  lemma HuntsAtMembers(data: seq<Candle>, i: int, atr: real, l: LiquidityLevel)
    requires 1 <= i < |data| - 1 && atr >= 0.0
    ensures l in HuntsAt(data, i, atr) <==> HuntAt(data, i, atr, l)
  {
  }

  lemma HuntMembers(data: seq<Candle>, atr: real, r: seq<LiquidityLevel>)
    requires atr >= 0.0
    requires r == Scan(1, |data| - 1, HuntEmitter(data, atr))
    ensures forall l :: l in r <==> exists i :: 1 <= i < |data| - 1 && HuntAt(data, i, atr, l)
    ensures forall l :: l in r ==> NonNegative(l.strength) && !l.swept
  {
    forall l
      ensures l in r <==> exists i :: 1 <= i < |data| - 1 && HuntAt(data, i, atr, l)
      ensures l in r ==> NonNegative(l.strength) && !l.swept
    {
      HuntMember(data, atr, r, l);
    }
  }

  lemma HuntMember(data: seq<Candle>, atr: real, r: seq<LiquidityLevel>, l: LiquidityLevel)
    requires atr >= 0.0
    requires r == Scan(1, |data| - 1, HuntEmitter(data, atr))
    ensures l in r <==> exists i :: 1 <= i < |data| - 1 && HuntAt(data, i, atr, l)
    ensures l in r ==> NonNegative(l.strength) && !l.swept
  {
    var e := HuntEmitter(data, atr);
    if l in r {
      var i :| 1 <= i < |data| - 1 && l in e(i);
      assert l in HuntsAt(data, i, atr);
      HuntsAtMembers(data, i, atr, l);
      assert HuntAt(data, i, atr, l);
      assert l == StopHuntHighLevel(data, i, atr) || l == StopHuntLowLevel(data, i, atr);
    } else {
      forall i | 1 <= i < |data| - 1 ensures !HuntAt(data, i, atr, l) {
        assert l !in e(i);
        HuntsAtMembers(data, i, atr, l);
      }
    }
  }

  function LevelTime(l: LiquidityLevel): int {
    l.time
  }

  /** On well-formed, time-ordered candles the hunts come out one per
      candle, in candle order: their times strictly ascend. */
  lemma HuntScanAscending(data: seq<Candle>, atr: real, r: seq<LiquidityLevel>)
    requires atr >= 0.0
    requires r == Scan(1, |data| - 1, HuntEmitter(data, atr))
    ensures Valid(data) && Ascending(data) ==> StrictlyAscending(r, LevelTime)
  {
    if Valid(data) && Ascending(data) {
      HuntsSingle(data, atr);
      HuntsOrdered(data, atr);
      ScanAscending(1, |data| - 1, HuntEmitter(data, atr), LevelTime);
    }
  }

  lemma HuntsSingle(data: seq<Candle>, atr: real)
    requires Valid(data) && atr >= 0.0
    ensures forall i :: 1 <= i < |data| - 1 ==> |HuntEmitter(data, atr)(i)| <= 1
  {
  }

  lemma HuntsOrdered(data: seq<Candle>, atr: real)
    requires Ascending(data) && atr >= 0.0
    ensures forall i, j, x, y :: 1 <= i < j < |data| - 1 && x in HuntEmitter(data, atr)(i) && y in HuntEmitter(data, atr)(j) ==>
      LevelTime(x) < LevelTime(y)
  {
    var e := HuntEmitter(data, atr);
    forall i, j, x, y | 1 <= i < j < |data| - 1 && x in e(i) && y in e(j)
      ensures LevelTime(x) < LevelTime(y)
    {
      HuntsAtMembers(data, i, atr, x);
      HuntsAtMembers(data, j, atr, y);
      assert x.time == data[i].time && y.time == data[j].time;
    }
  }

  /** Position of a level kind in the list `findLiquidityLevels` returns. */
  function Rank(k: LevelKind): nat {
    match k
    case Resistance => 0
    case Support => 1
    case _ => 2
  }

  /** `findLiquidityLevels`: equal-high resistance levels, then equal-low
      support levels, then the stop hunts. None is swept, every strength is
      non-negative, and a cluster level's strength is its candle count, at
      least 3. */
  function FindLiquidityLevels(data: seq<Candle>): (r: seq<LiquidityLevel>)
    requires |data| >= AtrPeriod
    ensures forall a, b :: 0 <= a < b < |r| ==> Rank(r[a].kind) <= Rank(r[b].kind)
    ensures forall k :: 0 <= k < |r| ==> !r[k].swept && NonNegative(r[k].strength)
    ensures forall k :: 0 <= k < |r| && Rank(r[k].kind) < 2 ==> r[k].strength.Finite? && r[k].strength.value >= 3.0
    ensures forall l :: l in r && l.kind == Resistance <==> exists b :: b in EqualHighs(data) && l == ResistanceLevel(b)
    ensures forall l :: l in r && l.kind == Support <==> exists b :: b in EqualLows(data) && l == SupportLevel(b)
    ensures forall l :: l in r && Rank(l.kind) == 2 <==> l in StopHunts(data)
  {
    var highs := Map(ResistanceLevel, EqualHighs(data));
    var lows := Map(SupportLevel, EqualLows(data));
    var hunts := StopHunts(data);
    MapMembers(ResistanceLevel, EqualHighs(data));
    MapMembers(SupportLevel, EqualLows(data));
    HuntsRankLast(data, hunts);
    LevelsByRank(highs, lows, hunts);
    highs + lows + hunts
  }

  lemma HuntsRankLast(data: seq<Candle>, hunts: seq<LiquidityLevel>)
    requires |data| >= AtrPeriod && hunts == StopHunts(data)
    ensures forall l :: l in hunts ==> Rank(l.kind) == 2 && !l.swept && NonNegative(l.strength)
  {
    forall l | l in hunts ensures Rank(l.kind) == 2 {
      var i :| 1 <= i < |data| - 1 && HuntAt(data, i, Atr(data), l);
    }
  }

  lemma LevelsByRank(highs: seq<LiquidityLevel>, lows: seq<LiquidityLevel>, hunts: seq<LiquidityLevel>)
    requires forall k :: 0 <= k < |highs| ==>
      highs[k].kind == Resistance && !highs[k].swept && highs[k].strength.Finite? && highs[k].strength.value >= 3.0
    requires forall k :: 0 <= k < |lows| ==>
      lows[k].kind == Support && !lows[k].swept && lows[k].strength.Finite? && lows[k].strength.value >= 3.0
    requires forall l :: l in hunts ==> Rank(l.kind) == 2 && !l.swept && NonNegative(l.strength)
    ensures var r := highs + lows + hunts;
      && (forall a, b :: 0 <= a < b < |r| ==> Rank(r[a].kind) <= Rank(r[b].kind))
      && (forall k :: 0 <= k < |r| ==> !r[k].swept && NonNegative(r[k].strength))
      && (forall k :: 0 <= k < |r| && Rank(r[k].kind) < 2 ==> r[k].strength.Finite? && r[k].strength.value >= 3.0)
      && (forall l :: l in r && l.kind == Resistance <==> l in highs)
      && (forall l :: l in r && l.kind == Support <==> l in lows)
      && (forall l :: l in r && Rank(l.kind) == 2 <==> l in hunts)
  {
    var r := highs + lows + hunts;
    forall k | 0 <= k < |r|
      ensures Rank(r[k].kind) == (if k < |highs| then 0 else if k < |highs| + |lows| then 1 else 2)
      ensures !r[k].swept && NonNegative(r[k].strength)
    {
      if |highs| + |lows| <= k {
        assert r[k] == hunts[k - |highs| - |lows|];
        assert r[k] in hunts;
      }
    }
  }
}

=== FILE: smc_structure.dfy ===
/** SMC market structure: breaks between consecutive swings, the key levels
    price keeps returning to, and the analyzer state that
    `detectMarketStructure` updates. */
module SmcStructure {
  import opened Options
  import opened Numeric
  import opened Seqs
  import opened Candles
  import opened Swings
  import opened SmcBlocks
  import opened SmcLiquidity

  datatype Break = Break(bias: Bias, price: real, time: int)

  /** Iteration `i` of `_findStructureBreaks` reads `lows[i].price` only when
      the highs moved (the `&&` short-circuits otherwise); past the end of
      the lows that read throws. */
  predicate CrashesAt(highs: seq<SwingPoint>, lows: seq<SwingPoint>, i: int)
    requires 1 <= i < |highs|
  {
    i >= |lows| && highs[i].price != highs[i - 1].price
  }

  /** Lower high and lower low: a bearish break at the low. */
  predicate BearishBreakAt(highs: seq<SwingPoint>, lows: seq<SwingPoint>, i: int)
    requires 1 <= i < |highs| && i < |lows|
  {
    highs[i].price < highs[i - 1].price && lows[i].price < lows[i - 1].price
  }

  /** Higher high and higher low: a bullish break at the high. */
  predicate BullishBreakAt(highs: seq<SwingPoint>, lows: seq<SwingPoint>, i: int)
    requires 1 <= i < |highs| && i < |lows|
  {
    highs[i].price > highs[i - 1].price && lows[i].price > lows[i - 1].price
  }

  /** What iteration `i` pushes when it does not throw. */
  function BreaksAt(highs: seq<SwingPoint>, lows: seq<SwingPoint>, i: int): (r: seq<Break>)
    ensures |r| <= 1
  {
    if !(1 <= i < |highs| && i < |lows|) then []
    else
      (if BearishBreakAt(highs, lows, i) then [Break(Bearish, lows[i].price, lows[i].time)] else [])
      + (if BullishBreakAt(highs, lows, i) then [Break(Bullish, highs[i].price, highs[i].time)] else [])
  }

  function BreakEmitter(highs: seq<SwingPoint>, lows: seq<SwingPoint>): (e: int -> seq<Break>)
    ensures forall i :: e(i) == BreaksAt(highs, lows, i)
  {
    i => BreaksAt(highs, lows, i)
  }

  ghost predicate BreakAt(highs: seq<SwingPoint>, lows: seq<SwingPoint>, i: int, b: Break)
    requires 1 <= i < |highs| && i < |lows|
  {
    || (BearishBreakAt(highs, lows, i) && b == Break(Bearish, lows[i].price, lows[i].time))
    || (BullishBreakAt(highs, lows, i) && b == Break(Bullish, highs[i].price, highs[i].time))
  }

  /** `_findStructureBreaks` on the swings of the window: `None` when the
      loop throws, which happens exactly when some high moves at an index
      the lows do not reach; otherwise one break per index where both swing
      series moved the same way, and nothing else. */
  function StructureBreaks(highs: seq<SwingPoint>, lows: seq<SwingPoint>): (r: Option<seq<Break>>)
    ensures r.None? <==> exists i :: 1 <= i < |highs| && CrashesAt(highs, lows, i)
    ensures |lows| >= |highs| ==> r.Some?
    ensures r.Some? ==> |r.value| < |highs| || r.value == []
    ensures r.Some? ==> forall b :: b in r.value <==>
      exists i :: 1 <= i < |highs| && i < |lows| && BreakAt(highs, lows, i, b)
  {
    if exists i :: 1 <= i < |highs| && CrashesAt(highs, lows, i) then None
    else
      var bs := Scan(1, |highs|, BreakEmitter(highs, lows));
      BreakMembers(highs, lows, bs);
      Some(bs)
  }

  lemma BreakMembers(highs: seq<SwingPoint>, lows: seq<SwingPoint>, bs: seq<Break>)
    requires bs == Scan(1, |highs|, BreakEmitter(highs, lows))
    ensures |bs| < |highs| || bs == []
    ensures forall b :: b in bs <==> exists i :: 1 <= i < |highs| && i < |lows| && BreakAt(highs, lows, i, b)
  {
    var e := BreakEmitter(highs, lows);
    BreakCount(highs, lows, bs);
    forall b | b in bs ensures exists i :: 1 <= i < |highs| && i < |lows| && BreakAt(highs, lows, i, b) {
      var i :| 1 <= i < |highs| && b in e(i);
      BreaksAtMembers(highs, lows, i, b);
    }
    forall b | exists i :: 1 <= i < |highs| && i < |lows| && BreakAt(highs, lows, i, b) ensures b in bs {
      var i :| 1 <= i < |highs| && i < |lows| && BreakAt(highs, lows, i, b);
      BreaksAtMembers(highs, lows, i, b);
      assert b in e(i);
    }
  }

  lemma BreakCount(highs: seq<SwingPoint>, lows: seq<SwingPoint>, bs: seq<Break>)
    requires bs == Scan(1, |highs|, BreakEmitter(highs, lows))
    ensures |bs| < |highs| || bs == []
  {
    if |highs| >= 1 {
      ScanAtMostOne(1, |highs|, BreakEmitter(highs, lows));
    }
  }

  lemma BreaksAtMembers(highs: seq<SwingPoint>, lows: seq<SwingPoint>, i: int, b: Break)
    requires 1 <= i < |highs|
    ensures b in BreaksAt(highs, lows, i) <==> i < |lows| && BreakAt(highs, lows, i, b)
  {
  }

  /** The source's short-circuit crash, on the smallest window that shows
      it: two rising highs and a single low. */
  lemma BreaksCrashWithFewerLows()
    ensures StructureBreaks([SwingPoint(1.0, 0), SwingPoint(2.0, 1)], [SwingPoint(0.5, 0)]).None?
  {
    assert CrashesAt([SwingPoint(1.0, 0), SwingPoint(2.0, 1)], [SwingPoint(0.5, 0)], 1);
  }

  /** A break is at a swing price that moved past its predecessor: a bullish
      break sits above the previous high, a bearish one below the previous
      low. */
  lemma BreakBeyondPreviousSwing(highs: seq<SwingPoint>, lows: seq<SwingPoint>)
    requires StructureBreaks(highs, lows).Some?
    ensures forall b :: b in StructureBreaks(highs, lows).value && b.bias == Bullish ==>
      exists i :: 1 <= i < |highs| && b.price == highs[i].price && highs[i - 1].price < b.price
    ensures forall b :: b in StructureBreaks(highs, lows).value && b.bias == Bearish ==>
      exists i :: 1 <= i < |lows| && b.price == lows[i].price && b.price < lows[i - 1].price
  {
    var bs := StructureBreaks(highs, lows).value;
    forall b | b in bs && b.bias == Bullish
      ensures exists i :: 1 <= i < |highs| && b.price == highs[i].price && highs[i - 1].price < b.price
    {
      var i :| 1 <= i < |highs| && i < |lows| && BreakAt(highs, lows, i, b);
    }
    forall b | b in bs && b.bias == Bearish
      ensures exists i :: 1 <= i < |lows| && b.price == lows[i].price && b.price < lows[i - 1].price
    {
      var i :| 1 <= i < |highs| && i < |lows| && BreakAt(highs, lows, i, b);
    }
  }

  /** Half an ATR: the distance within which a candle interacts with a level. */
  function Tolerance(data: seq<Candle>): (t: real)
    requires |data| >= AtrPeriod
    ensures t >= 0.0
  {
    Atr(data) * 0.5
  }

  /** The candle's high or low lies within `tol` of the price. */
  predicate Touches(c: Candle, price: real, tol: real) {
    Abs(c.high - price) <= tol || Abs(c.low - price) <= tol
  }

  /** A touch whose close ends farther than `tol` from the price. */
  predicate Respects(c: Candle, price: real, tol: real) {
    Touches(c, price, tol) && Abs(c.close - price) > tol
  }

  function TouchCount(data: seq<Candle>, price: real, tol: real): (n: nat)
    ensures n <= |data|
  {
    if data == [] then 0
    else (if Touches(data[0], price, tol) then 1 else 0) + TouchCount(data[1..], price, tol)
  }

  function RespectCount(data: seq<Candle>, price: real, tol: real): (n: nat)
    ensures n <= TouchCount(data, price, tol)
  {
    if data == [] then 0
    else (if Respects(data[0], price, tol) then 1 else 0) + RespectCount(data[1..], price, tol)
  }

  /** Counting over a window is counting over its parts, as the `forEach`
      does one candle at a time. */
  lemma {:induction false} TouchCountConcat(a: seq<Candle>, b: seq<Candle>, price: real, tol: real)
    ensures TouchCount(a + b, price, tol) == TouchCount(a, price, tol) + TouchCount(b, price, tol)
  {
    if a == [] {
      assert a + b == b;
    } else {
      assert (a + b)[0] == a[0];
      assert (a + b)[1..] == a[1..] + b;
      TouchCountConcat(a[1..], b, price, tol);
    }
  }

  /** A wider tolerance can only add interactions. */
  lemma {:induction false} TouchCountMonotone(data: seq<Candle>, price: real, t1: real, t2: real)
    requires t1 <= t2
    ensures TouchCount(data, price, t1) <= TouchCount(data, price, t2)
  {
    if data != [] {
      TouchCountMonotone(data[1..], price, t1, t2);
    }
  }

  /** `_isSignificantLevel`: at least three candles interact with the price. */
  predicate IsSignificant(data: seq<Candle>, price: real, tol: real) {
    TouchCount(data, price, tol) >= 3
  }

  /** `_calculateLevelStrength`: touches plus respected touches, halved; it
      lies between half the touches and all of them. */
  function LevelStrength(data: seq<Candle>, price: real, tol: real): (r: real)
    ensures TouchCount(data, price, tol) as real / 2.0 <= r <= TouchCount(data, price, tol) as real
  {
    (TouchCount(data, price, tol) + RespectCount(data, price, tol)) as real / 2.0
  }

  datatype KeyLevel = KeyLevel(kind: LevelKind, price: real, time: int, strength: real)

  function KeyLevelOf(data: seq<Candle>, tol: real, kind: LevelKind, p: SwingPoint): KeyLevel {
    KeyLevel(kind, p.price, p.time, LevelStrength(data, p.price, tol))
  }

  /** One of the two `forEach` passes: a level of the given kind for each
      significant swing point, in swing order. */
  function SignificantLevels(data: seq<Candle>, tol: real, kind: LevelKind, pts: seq<SwingPoint>): (r: seq<KeyLevel>)
    ensures |r| <= |pts|
    ensures forall l :: l in r <==> exists p :: p in pts && IsSignificant(data, p.price, tol) && l == KeyLevelOf(data, tol, kind, p)
    ensures forall l :: l in r ==> l.strength >= 1.5
  {
    if pts == [] then []
    else
      var rest := SignificantLevels(data, tol, kind, pts[1..]);
      assert forall p :: p in pts <==> p == pts[0] || p in pts[1..];
      if IsSignificant(data, pts[0].price, tol) then [KeyLevelOf(data, tol, kind, pts[0])] + rest else rest
  }

  function KeyStrength(l: KeyLevel): real {
    l.strength
  }

  /** A key level of the window: a significant swing high as resistance or
      a significant swing low as support. */
  ghost predicate IsKeyLevel(data: seq<Candle>, highs: seq<SwingPoint>, lows: seq<SwingPoint>, l: KeyLevel)
    requires |data| >= AtrPeriod
  {
    || (exists p :: p in highs && IsSignificant(data, p.price, Tolerance(data)) && l == KeyLevelOf(data, Tolerance(data), Resistance, p))
    || (exists p :: p in lows && IsSignificant(data, p.price, Tolerance(data)) && l == KeyLevelOf(data, Tolerance(data), Support, p))
  }

  /** The levels `_findKeyLevels` pushes before sorting: the significant
      swing highs as resistance, then the significant swing lows as support. */
  function KeyCandidates(data: seq<Candle>, highs: seq<SwingPoint>, lows: seq<SwingPoint>): seq<KeyLevel>
    requires |data| >= AtrPeriod
  {
    SignificantLevels(data, Tolerance(data), Resistance, highs) + SignificantLevels(data, Tolerance(data), Support, lows)
  }

  /** `_findKeyLevels`: exactly the key levels of the window, each as often
      as its swing occurs, strongest first, and levels of equal strength in
      the order they were pushed; being significant, each has strength at
      least 1.5. */
  function FindKeyLevels(data: seq<Candle>, highs: seq<SwingPoint>, lows: seq<SwingPoint>): (r: seq<KeyLevel>)
    requires |data| >= AtrPeriod
    ensures |r| <= |highs| + |lows|
    ensures NonIncreasing(r, KeyStrength)
    ensures multiset(r) == multiset(KeyCandidates(data, highs, lows))
    ensures forall v :: Filter(KeyIs(KeyStrength, v), r) == Filter(KeyIs(KeyStrength, v), KeyCandidates(data, highs, lows))
    ensures forall l :: l in r <==> IsKeyLevel(data, highs, lows, l)
    ensures forall k :: 0 <= k < |r| ==> r[k].strength >= 1.5
  {
    var tol := Tolerance(data);
    var found := SignificantLevels(data, tol, Resistance, highs) + SignificantLevels(data, tol, Support, lows);
    var r := SortDesc(found, KeyStrength);
    SortDescStableAll(found, KeyStrength);
    SameElements(r, found);
    assert forall k :: 0 <= k < |r| ==> r[k] in found;
    r
  }

  datatype MarketStructure = MarketStructure(
    trend: Option<Trend>,
    breaks: seq<Break>,
    swingHighs: seq<SwingPoint>,
    swingLows: seq<SwingPoint>,
    keyLevels: seq<KeyLevel>,
    mitigation: seq<MitigationEvent>)

  /** The fields of an `SmcAnalyzer` instance. */
  datatype SmcState = SmcState(
    orderBlocks: seq<OrderBlock>,
    liquidityLevels: seq<LiquidityLevel>,
    structure: MarketStructure)

  /** The constructor's state: no blocks, no levels, no trend yet. */
  const InitialSmc: SmcState := SmcState([], [], MarketStructure(None, [], [], [], [], []))

  /** `identifyOrderBlocks` as a state step: the block list is replaced
      wholesale by the window's blocks. */
  function WithOrderBlocks(s: SmcState, data: seq<Candle>): (r: SmcState)
    requires Valid(data)
    ensures r.orderBlocks == IdentifyOrderBlocks(data)
    ensures r.liquidityLevels == s.liquidityLevels && r.structure == s.structure
  {
    s.(orderBlocks := IdentifyOrderBlocks(data))
  }

  /** `findLiquidityLevels` as a state step. */
  function WithLiquidityLevels(s: SmcState, data: seq<Candle>): (r: SmcState)
    requires |data| >= AtrPeriod
    ensures r.liquidityLevels == FindLiquidityLevels(data)
    ensures r.orderBlocks == s.orderBlocks && r.structure == s.structure
  {
    s.(liquidityLevels := FindLiquidityLevels(data))
  }

  /** `detectMarketStructure`. `None` when it throws: on fewer than 14
      candles (the ATR read), or when the structure-break loop throws.
      Otherwise the blocks are flagged by the mitigation pass, the new events
      are appended to the running mitigation log, and the structure is
      rebuilt from the window; the liquidity levels are untouched. */
  function DetectMarketStructure(s: SmcState, data: seq<Candle>): (r: Option<SmcState>)
    ensures r.None? <==> |data| < AtrPeriod || StructureBreaks(SwingHighs(data), SwingLows(data)).None?
    ensures r.Some? ==> r.value.liquidityLevels == s.liquidityLevels
    ensures r.Some? ==> |r.value.orderBlocks| == |s.orderBlocks| && forall k :: 0 <= k < |s.orderBlocks| ==>
      r.value.orderBlocks[k] == s.orderBlocks[k].(mitigated := s.orderBlocks[k].mitigated || TradedThrough(s.orderBlocks[k], data))
    ensures r.Some? ==> s.structure.mitigation <= r.value.structure.mitigation
    ensures r.Some? ==> r.value.structure.mitigation == s.structure.mitigation + Map(EventOf, Filter(FlipTest(data), s.orderBlocks))
    ensures r.Some? ==> r.value.structure.trend == Some(DetermineTrend(Prices(SwingHighs(data)), Prices(SwingLows(data))))
    ensures r.Some? ==> r.value.structure.swingHighs == SwingHighs(data) && r.value.structure.swingLows == SwingLows(data)
    ensures r.Some? ==> StructureBreaks(SwingHighs(data), SwingLows(data)) == Some(r.value.structure.breaks)
    ensures r.Some? ==> forall l :: l in r.value.structure.keyLevels <==> IsKeyLevel(data, SwingHighs(data), SwingLows(data), l)
    ensures r.Some? ==> NonIncreasing(r.value.structure.keyLevels, KeyStrength)
    ensures r.Some? ==> r.value.structure.keyLevels == FindKeyLevels(data, SwingHighs(data), SwingLows(data))
  {
    if |data| < AtrPeriod then None
    else
      var highs := SwingHighs(data);
      var lows := SwingLows(data);
      match StructureBreaks(highs, lows)
      case None => None
      case Some(breaks) =>
        var m := CheckMitigation(s.orderBlocks, data);
        var log := s.structure.mitigation + m.events;
        assert log[..|s.structure.mitigation|] == s.structure.mitigation;
        Some(SmcState(m.blocks, s.liquidityLevels,
          MarketStructure(Some(DetermineTrend(Prices(highs), Prices(lows))), breaks, highs, lows, FindKeyLevels(data, highs, lows), log)))
  }

  /** Detecting twice on the same window changes nothing the second time
      except rebuilding the same structure: no block is flipped again and
      the mitigation log does not grow. */
  lemma DetectTwiceLogsOnce(s: SmcState, data: seq<Candle>)
    requires DetectMarketStructure(s, data).Some?
    ensures DetectMarketStructure(DetectMarketStructure(s, data).value, data) == DetectMarketStructure(s, data)
  {
    var once := DetectMarketStructure(s, data).value;
    MitigationIdempotent(s.orderBlocks, data);
    var m := CheckMitigation(once.orderBlocks, data);
    assert m.blocks == once.orderBlocks && m.events == [];
    assert once.structure.mitigation + m.events == once.structure.mitigation;
  }
}

=== FILE: swings.dfy ===
/** Swing points and the trend label derived from them. Both analyzers carry
    their own copy of this logic (the SMC analyzer keeps price and time, the
    ICT analyzer only the price); it is defined once here and the ICT copy is
    related to it in module `Ict`. */
module Swings {
  import opened Candles
  import opened Seqs

  datatype SwingPoint = SwingPoint(price: real, time: int)

  /** Candle `i` has a high strictly above the highs of the two candles on
      each side. */
  predicate IsSwingHigh(data: seq<Candle>, i: int)
    requires 2 <= i < |data| - 2
  {
    && data[i].high > data[i - 1].high
    && data[i].high > data[i - 2].high
    && data[i].high > data[i + 1].high
    && data[i].high > data[i + 2].high
  }

  predicate IsSwingLow(data: seq<Candle>, i: int)
    requires 2 <= i < |data| - 2
  {
    && data[i].low < data[i - 1].low
    && data[i].low < data[i - 2].low
    && data[i].low < data[i + 1].low
    && data[i].low < data[i + 2].low
  }

  /** What iteration `i` of the swing loop pushes onto `highs`. */
  function HighAt(data: seq<Candle>, i: int): seq<SwingPoint> {
    if 2 <= i < |data| - 2 && IsSwingHigh(data, i) then [SwingPoint(data[i].high, data[i].time)] else []
  }

  function LowAt(data: seq<Candle>, i: int): seq<SwingPoint> {
    if 2 <= i < |data| - 2 && IsSwingLow(data, i) then [SwingPoint(data[i].low, data[i].time)] else []
  }

  function HighEmitter(data: seq<Candle>): (e: int -> seq<SwingPoint>)
    ensures forall i :: e(i) == HighAt(data, i)
  {
    i => HighAt(data, i)
  }

  function LowEmitter(data: seq<Candle>): (e: int -> seq<SwingPoint>)
    ensures forall i :: e(i) == LowAt(data, i)
  {
    i => LowAt(data, i)
  }

  /** `_findSwingPoints(data).highs`: one point per swing-high candle, never
      from the first two or the last two candles. */
  function SwingHighs(data: seq<Candle>): (r: seq<SwingPoint>)
    ensures forall p :: p in r <==>
      exists i :: 2 <= i < |data| - 2 && IsSwingHigh(data, i) && p == SwingPoint(data[i].high, data[i].time)
    ensures |r| <= if |data| < 4 then 0 else |data| - 4
  {
    ScanLength(data, HighEmitter(data));
    var r := Scan(2, |data| - 2, HighEmitter(data));
    HighsMembers(data, r);
    r
  }

  /** `_findSwingPoints(data).lows`. */
  function SwingLows(data: seq<Candle>): (r: seq<SwingPoint>)
    ensures forall p :: p in r <==>
      exists i :: 2 <= i < |data| - 2 && IsSwingLow(data, i) && p == SwingPoint(data[i].low, data[i].time)
    ensures |r| <= if |data| < 4 then 0 else |data| - 4
  {
    ScanLength(data, LowEmitter(data));
    var r := Scan(2, |data| - 2, LowEmitter(data));
    LowsMembers(data, r);
    r
  }

  lemma HighsMembers(data: seq<Candle>, r: seq<SwingPoint>)
    requires r == Scan(2, |data| - 2, HighEmitter(data))
    ensures forall p :: p in r <==>
      exists i :: 2 <= i < |data| - 2 && IsSwingHigh(data, i) && p == SwingPoint(data[i].high, data[i].time)
  {
    forall p ensures p in r <==>
      exists i :: 2 <= i < |data| - 2 && IsSwingHigh(data, i) && p == SwingPoint(data[i].high, data[i].time)
    {
      if p in r {
        var i :| 2 <= i < |data| - 2 && p in HighEmitter(data)(i);
        assert IsSwingHigh(data, i) && p == SwingPoint(data[i].high, data[i].time);
      }
      if exists i :: 2 <= i < |data| - 2 && IsSwingHigh(data, i) && p == SwingPoint(data[i].high, data[i].time) {
        var i :| 2 <= i < |data| - 2 && IsSwingHigh(data, i) && p == SwingPoint(data[i].high, data[i].time);
        assert p in HighEmitter(data)(i);
      }
    }
  }

  lemma LowsMembers(data: seq<Candle>, r: seq<SwingPoint>)
    requires r == Scan(2, |data| - 2, LowEmitter(data))
    ensures forall p :: p in r <==>
      exists i :: 2 <= i < |data| - 2 && IsSwingLow(data, i) && p == SwingPoint(data[i].low, data[i].time)
  {
    forall p ensures p in r <==>
      exists i :: 2 <= i < |data| - 2 && IsSwingLow(data, i) && p == SwingPoint(data[i].low, data[i].time)
    {
      if p in r {
        var i :| 2 <= i < |data| - 2 && p in LowEmitter(data)(i);
        assert IsSwingLow(data, i) && p == SwingPoint(data[i].low, data[i].time);
      }
      if exists i :: 2 <= i < |data| - 2 && IsSwingLow(data, i) && p == SwingPoint(data[i].low, data[i].time) {
        var i :| 2 <= i < |data| - 2 && IsSwingLow(data, i) && p == SwingPoint(data[i].low, data[i].time);
        assert p in LowEmitter(data)(i);
      }
    }
  }

  lemma ScanLength(data: seq<Candle>, emit: int -> seq<SwingPoint>)
    requires forall i :: |emit(i)| <= 1
    ensures |Scan(2, |data| - 2, emit)| <= if |data| < 4 then 0 else |data| - 4
  {
    if |data| >= 4 {
      ScanAtMostOne(2, |data| - 2, emit);
    }
  }

  function TimeOf(p: SwingPoint): int {
    p.time
  }

  /** On a window with ascending open times the swing points come out in
      strictly ascending time order, i.e. in index order. */
  lemma SwingsAscending(data: seq<Candle>)
    requires Ascending(data)
    ensures StrictlyAscending(SwingHighs(data), TimeOf)
    ensures StrictlyAscending(SwingLows(data), TimeOf)
  {
    HighsOrdered(data);
    ScanAscending(2, |data| - 2, HighEmitter(data), TimeOf);
    LowsOrdered(data);
    ScanAscending(2, |data| - 2, LowEmitter(data), TimeOf);
  }

  lemma HighsOrdered(data: seq<Candle>)
    requires Ascending(data)
    ensures forall i, j, x, y :: 2 <= i < j < |data| - 2 && x in HighEmitter(data)(i) && y in HighEmitter(data)(j) ==> TimeOf(x) < TimeOf(y)
  {
    var highs := HighEmitter(data);
    forall i, j, x, y | 2 <= i < j < |data| - 2 && x in highs(i) && y in highs(j)
      ensures TimeOf(x) < TimeOf(y)
    {
      assert x.time == data[i].time && y.time == data[j].time;
    }
  }

  lemma LowsOrdered(data: seq<Candle>)
    requires Ascending(data)
    ensures forall i, j, x, y :: 2 <= i < j < |data| - 2 && x in LowEmitter(data)(i) && y in LowEmitter(data)(j) ==> TimeOf(x) < TimeOf(y)
  {
    var lows := LowEmitter(data);
    forall i, j, x, y | 2 <= i < j < |data| - 2 && x in lows(i) && y in lows(j)
      ensures TimeOf(x) < TimeOf(y)
    {
      assert x.time == data[i].time && y.time == data[j].time;
    }
  }

  function Negate(p: SwingPoint): SwingPoint {
    SwingPoint(-p.price, p.time)
  }

  /** Swing symmetry: the swing highs of the upside-down window are exactly
      the swing lows of the window, negated, in the same order. */
  lemma SwingMirror(data: seq<Candle>)
    ensures SwingHighs(MirrorAll(data)) == Map(Negate, SwingLows(data))
    ensures SwingLows(MirrorAll(data)) == Map(Negate, SwingHighs(data))
  {
    var m := MirrorAll(data);
    forall i | 2 <= i < |data| - 2
      ensures IsSwingHigh(m, i) <==> IsSwingLow(data, i)
      ensures IsSwingLow(m, i) <==> IsSwingHigh(data, i)
    {
    }
    var lowsD, highsD := LowEmitter(data), HighEmitter(data);
    var lowsM, highsM := LowEmitter(m), HighEmitter(m);
    forall i | 2 <= i < |data| - 2
      ensures highsM(i) == Map(Negate, lowsD(i))
      ensures lowsM(i) == Map(Negate, highsD(i))
    {
    }
    ScanMap(2, |data| - 2, lowsD, highsM, Negate);
    ScanMap(2, |data| - 2, highsD, lowsM, Negate);
  }

  function Price(p: SwingPoint): real {
    p.price
  }

  function Prices(ps: seq<SwingPoint>): seq<real> {
    Map(Price, ps)
  }

  datatype Trend = Uptrend | Downtrend | Ranging

  /** `slice(-3)`: the last three entries, or all of them when fewer. */
  function Recent(s: seq<real>): (r: seq<real>)
    ensures |r| == if |s| < 3 then |s| else 3
  {
    if |s| <= 3 then s else s[|s| - 3..]
  }

  /** What `slice(-3)` keeps is a suffix: the entries of `s` from position
      `|s| - |Recent(s)|` on. */
  lemma RecentIsSuffix(s: seq<real>)
    ensures Recent(s) == s[|s| - |Recent(s)|..]
  {
  }

  /** `every((v, i, a) => !i || v > a[i - 1])`: each entry above its
      predecessor. */
  predicate RisesStepwise(s: seq<real>) {
    forall i :: 0 < i < |s| ==> s[i - 1] < s[i]
  }

  predicate FallsStepwise(s: seq<real>) {
    forall i :: 0 < i < |s| ==> s[i - 1] > s[i]
  }

  ghost predicate StrictlyIncreasing(s: seq<real>) {
    forall a, b :: 0 <= a < b < |s| ==> s[a] < s[b]
  }

  ghost predicate StrictlyDecreasing(s: seq<real>) {
    forall a, b :: 0 <= a < b < |s| ==> s[a] > s[b]
  }

  lemma {:induction false} StepwiseRise(s: seq<real>)
    ensures RisesStepwise(s) <==> StrictlyIncreasing(s)
  {
    if |s| > 1 {
      var t := s[..|s| - 1];
      StepwiseRise(t);
      if RisesStepwise(s) {
        assert RisesStepwise(t);
        forall a, b | 0 <= a < b < |s| ensures s[a] < s[b] {
          if b < |s| - 1 {
            assert t[a] < t[b];
          } else if a < b - 1 {
            assert t[a] < t[b - 1];
          }
        }
      }
    }
  }

  lemma {:induction false} StepwiseFall(s: seq<real>)
    ensures FallsStepwise(s) <==> StrictlyDecreasing(s)
  {
    if |s| > 1 {
      var t := s[..|s| - 1];
      StepwiseFall(t);
      if FallsStepwise(s) {
        assert FallsStepwise(t);
        forall a, b | 0 <= a < b < |s| ensures s[a] > s[b] {
          if b < |s| - 1 {
            assert t[a] > t[b];
          } else if a < b - 1 {
            assert t[a] > t[b - 1];
          }
        }
      }
    }
  }

  /** `_determineTrend`: `uptrend` exactly when the last (up to) three swing
      highs and the last (up to) three swing lows both strictly rise;
      `downtrend` when that fails and both strictly fall; `ranging`
      otherwise. Too few points rise vacuously, so a window with at most one
      swing of each kind is labelled `uptrend`. */
  function DetermineTrend(highs: seq<real>, lows: seq<real>): (r: Trend)
    ensures r == Uptrend <==> StrictlyIncreasing(Recent(highs)) && StrictlyIncreasing(Recent(lows))
    ensures r == Downtrend <==>
      && !(StrictlyIncreasing(Recent(highs)) && StrictlyIncreasing(Recent(lows)))
      && StrictlyDecreasing(Recent(highs)) && StrictlyDecreasing(Recent(lows))
    ensures |highs| <= 1 && |lows| <= 1 ==> r == Uptrend
  {
    StepwiseRise(Recent(highs));
    StepwiseRise(Recent(lows));
    StepwiseFall(Recent(highs));
    StepwiseFall(Recent(lows));
    if RisesStepwise(Recent(highs)) && RisesStepwise(Recent(lows)) then Uptrend
    else if FallsStepwise(Recent(highs)) && FallsStepwise(Recent(lows)) then Downtrend
    else Ranging
  }

  /** Only the last three swings of each kind matter: older swings never
      change the label. */
  lemma TrendIgnoresOlderSwings(older: seq<real>, highs: seq<real>, lows: seq<real>)
    requires |highs| >= 3
    ensures DetermineTrend(older + highs, lows) == DetermineTrend(highs, lows)
    ensures DetermineTrend(lows, older + highs) == DetermineTrend(lows, highs)
  {
    var s := older + highs;
    RecentIsSuffix(s);
    RecentIsSuffix(highs);
    assert Recent(s) == Recent(highs) by {
      assert s[|s| - 3..] == highs[|highs| - 3..];
    }
  }
}
